=== FILE: README.md ===
# GPS tracker uplink core, modelled in Dafny

This project models the uplink core of the tracker firmware's GPS node,
`src/GPSNode.cpp`. It covers:

- the NMEA 0183 `*hh` checksum the node applies to every record;
- record capture: `_readGpsRecord` and the read half of `loop`;
- the upload round `_sendNextGpsData`, including chunk building, the HTTP
  POST, status-line reading, queue removal and the per-branch counters;
- the metrics snapshot of `_reportMetrics`;
- one pass of `loop`, which ties these together.

Everything is a pure function over immutable data. The queue is a
`seq<Record>`. The counters are a datatype of `nat`s. The serial port, the
network and the timers are given to each operation as scripts.

| file | module | what it holds |
|---|---|---|
| `wrappers.dfy` | `Wrappers` | `Option`, `Min` |
| `nmea.dfy` | `Nmea` | `_fromHex`, `_validateNmeaChecksum`, rendering and reading back `*hh` |
| `record_queue.dfy` | `RecordQueue` | the queue contract: `push`, `peek`, `removeElements` |
| `metrics.dfy` | `Metrics` | the eleven counters, each branch's update, the published snapshot |
| `acquisition.dfy` | `Acquisition` | record assembly, the bounded retry, the read tick |
| `http.dfy` | `Http` | the POST written and a reader for it, `%d`, and the two-token status reading |
| `chunk.dfy` | `UploadChunk` | one chunk build pass, as a function and as the source's loop |
| `upload.dfy` | `Upload` | the send loop and the upload round, with their invariants |
| `upload_facts.dfy` | `UploadFacts` | the round in particular situations, and the removal off-by-one |
| `node.dfy` | `Node` | one pass of `loop` |

## How the environment is modelled

- **Serial port.** Each attempt of `_readGpsRecord` consumes one line of a
  given sequence. Past its end the `find` and the read time out, and the line
  is empty.
- **Network.** The network is a connect flag plus, for each iteration of the
  send loop, one `Exchange`:
  - `OutOfTime`: the 10 s round budget ran out before the iteration;
  - `NoResponse(elapsed)`: fewer than 15 response bytes arrived within the
    5 s wait;
  - `Response(text, elapsed)`: these bytes came back.

  A script that runs out also means the budget ran out. The `elapsed` values
  are the time deltas the counters add.
- **Bytes.** A `char` stands for one byte of the firmware's buffers; where
  the checksum XORs them, a character counts as the byte `c as int % 256`.
  A stored record is the string `strlen` sees, so it holds no NUL: the
  `Record` type says so, and record assembly (`CStr`) only produces
  NUL-free records. Characters above 255 are outside the model: `FromHex`
  reads a character's code point as it is, so only characters below 256
  stand for the same byte in the XOR and in the hex reader.
- **Timers and connectivity.** Each pass of `loop` receives them as flags.
- **Record validator.** The chunk builder, the upload round, the read tick
  and the loop pass take the record validator as a parameter `valid`.
  - The firmware passes `_validateNmeaChecksum`, which is
    `RecordQueue.Valid`.
  - The lemmas about concrete sentences (`ValidSentenceCaptured`,
    `StalledReceiverCountsError`) use that validator.
  - Every other property holds for any validator, so it holds for this one.
- **Removal count.** How many records a 201 removes is a parameter
  (`Removal`):
  - `AsWritten` removes `sdRecordsCount`, as the source does;
  - `Corrected` removes only the records the chunk examined.

  See "Findings".
- **The server's side of the POST.** To state what the written bytes mean,
  `Http.ParseRequest` reads them back as a server would: a request line up to
  CRLF, header lines up to the empty line (keeping the `Content-Length`
  value), and everything after it as the body.

## Behaviour of the code worth knowing

- **A rejected POST does not end the round.** After a non-201 or unparsable
  response the loop does not `break`. The next iteration rebuilds the same
  chunk from the queue head and POSTs it again, up to ten POSTs per round.
  Each of those POSTs counts one upload error
  (`UploadFacts.RejectedRetriesSameChunk`).
- **A chunk can exceed the ceiling.** The buffer grows while it holds fewer
  than 1150 bytes, so the last record appended can take it past 1150.
  `UploadChunk.BuildChunk` states exactly this: every append happens below
  the ceiling.
- **Removal count.** After a 201 the code removes one record more than the
  chunk examined (see "Findings").
- **Host header.** The `Host` header is the literal
  `api.devices.stutzthings.com`, not the configured host setting.

## Model

| member | source | states |
|---|---|---|
| Nmea.FromHex | src/GPSNode.cpp:322-329 | each digit `0`-`9`, `A`-`F` and `a`-`f` yields its value, so both cases read alike; any other character yields its distance from `0` |
| Nmea.ValidateNmeaChecksum | src/GPSNode.cpp:311-320 | the validator's loop accepts exactly when the XOR of the characters from index 1 up to four before the end equals the two declared hex digits read as a byte |
| Nmea.HexPairValue | src/GPSNode.cpp:317 | two hex digits written for a checksum, in either case, read back as that checksum |
| Nmea.EnvelopeLayout | src/GPSNode.cpp:311-320 | in the layout `$body*hh\r` the validator XORs exactly `body` and compares it with the value of `hh` |
| Nmea.EnvelopeChecksum | src/GPSNode.cpp:311-320 | a sentence `$body*hh\r` passes exactly when `hh` renders the XOR of `body`, upper or lower case |
| RecordQueue.Push | src/GPSNode.cpp:113 | one record appended at the tail, the existing records unchanged |
| RecordQueue.Peek | src/GPSNode.cpp:172 | a peek succeeds exactly when the offset is below the count, and returns the record at that offset |
| RecordQueue.RemoveElements | src/GPSNode.cpp:229 | the first `min(n, count)` records go, and the rest stay in order |
| Metrics.RecordRead | src/GPSNode.cpp:112-131 | the read tick's update never decreases a cumulative counter |
| Metrics.ConnectFailure | src/GPSNode.cpp:153-159 | the failed-connect update never decreases a cumulative counter |
| Metrics.PostFailed | src/GPSNode.cpp:231-241 | the update for an unacknowledged POST never decreases a cumulative counter |
| Metrics.PostSucceeded | src/GPSNode.cpp:221-228 | the update for a 201 never decreases a cumulative counter |
| Metrics.CorruptDiscarded | src/GPSNode.cpp:254-257 | the update for dropped corrupt records never decreases a cumulative counter |
| Metrics.Report | src/GPSNode.cpp:269-286 | the snapshot sets the backlog to the queue size and changes no cumulative counter; it publishes all eleven counters in source order, each under its name with its value |
| Acquisition.CStr | src/GPSNode.cpp:296-300 | the C string of a buffer is its longest NUL-free prefix, ended by a NUL or the buffer end |
| Acquisition.Assemble | src/GPSNode.cpp:296-300 | the record is the prefix followed by the line read, truncated to `recordLength - 1` characters, and it starts with the prefix |
| Acquisition.LastAttempt | src/GPSNode.cpp:291-304 | the do/while makes at most three attempts, stops at the first valid one, and every earlier attempt was invalid |
| Acquisition.ReadRecord | src/GPSNode.cpp:288-307 | 1 to 3 attempts; the buffer holds the last attempt's record and the result is its validity; every earlier attempt failed; a failure means all three attempts were made |
| Acquisition.ReadTick | src/GPSNode.cpp:95-133 | the kind alternates; a valid read pushes the record once and bumps the success count; an invalid read leaves the queue and bumps the error count; a valid record is published live only when connected, under the kind just read |
| Acquisition.SentenceLineAssembled | src/GPSNode.cpp:294-301 | a receiver line with a correct checksum that fits the buffer is assembled unchanged and passes the validator |
| Acquisition.ValidSentenceCaptured | src/GPSNode.cpp:95-115 | a well-formed sentence is captured on the first attempt: pushed as read, counted once as a success |
| Acquisition.StalledReceiverCountsError | src/GPSNode.cpp:288-307 | a silent receiver leaves the bare prefix, which fails the checksum: three attempts, no push, one error, nothing published |
| UploadChunk.FirstStop | src/GPSNode.cpp:172 | the build stops at the first prefix whose body reached the ceiling, or at the queue end |
| UploadChunk.BuildChunk | src/GPSNode.cpp:166-183 | the body is the examined records' valid ones, in order, each with a newline; corrupt ones are omitted; every append happened below 1150 bytes; it stopped at the queue end or the ceiling; the cursor ends at ok + err + 1 |
| UploadChunk.BuildChunkLoop | src/GPSNode.cpp:166-183 | the source's loop, post-increment included, computes exactly that pass, and its cursor ends one past the records examined |
| UploadChunk.CountsCover | src/GPSNode.cpp:174-181 | every examined record is counted as valid or as corrupt |
| UploadChunk.BodyAppend | src/GPSNode.cpp:175-176 | bodies and counts of consecutive runs of records add up |
| UploadChunk.EmptyBodyAllCorrupt | src/GPSNode.cpp:252-258 | an empty body means every examined record failed the validator |
| Http.Decimal | src/GPSNode.cpp:190-194 | `%d` gives non-empty decimal digits without a leading zero |
| Http.DecimalRoundTrip | src/GPSNode.cpp:190-194 | the decimal text of a number reads back as that number |
| Http.Post | src/GPSNode.cpp:188-196 | the request carries the path and the chunk body, and its Content-Length reads back as the body's length |
| Http.Wire | src/GPSNode.cpp:190-196 | read back by the request reader, the bytes give the request line `POST /<path> HTTP/1.1`, the Content-Length value as written, and exactly the body after the empty line, whenever the path and that value hold no CR |
| Http.HeadReadsBack | src/GPSNode.cpp:190-196 | the printed head followed by the body reads back line by line: the request line, the Host line passed over, the Content-Length value kept, the Content-Type line passed over, then the body |
| Http.PostFramesBody | src/GPSNode.cpp:188-196 | the request for a chunk, read back, has the configured path in its request line, the chunk as its body, and a Content-Length value that parses to the number of body bytes |
| Http.ReadUntilSpace | src/GPSNode.cpp:218-219 | the token contains no space; the input is the token, the space and the rest, or the whole input when it has no space |
| Http.Classify | src/GPSNode.cpp:216-221 | a response is unparsable exactly when its first token is empty (it is empty or starts with a space); a rejection carries the space-free second token, which is never `201`; `CreatedIfStatus201` and `CreatedOnlyIfStatus201` characterise success |
| Http.CreatedIfStatus201 | src/GPSNode.cpp:216-223 | every line `<version> 201` with a non-empty space-free version, followed by its end or a space, reads as success |
| Http.CreatedOnlyIfStatus201 | src/GPSNode.cpp:216-223 | success is read only from such a line |
| Upload.Read | src/GPSNode.cpp:200-221 | a response is read only when it has at least 15 bytes, and then by its status line; otherwise it is a wait timeout |
| Upload.DropCorrupt | src/GPSNode.cpp:252-258 | when every remaining record is corrupt, all of them leave the head as dropped records (the dropped records are exactly the queue) and are counted as CRC errors; nothing is sent, no 201 is counted and nothing is removed as sent |
| Upload.Unacked | src/GPSNode.cpp:203-242 | a timed-out or non-201 POST removes nothing, adds one error with its bytes, and counts no record |
| Upload.Acked | src/GPSNode.cpp:221-230 | a 201 removes the first `n` records and counts one success; when the body and the counts were built from the first `e` records and `n` is at most `e + 1`, those `e` are counted, valid ones as uploaded and corrupt ones as CRC errors; when `n` is `e`, nothing is lost |
| Upload.Iterate | src/GPSNode.cpp:166-259 | one pass of the loop body; it has no contract of its own: `IterateExits`, `IterateEnds`, `IterateKeepsHead`, `IterateConfirmsOnAck`, `IterateRemovesOnCreated`, `IterateFramed`, `IterateCounted` (with where the reply's elapsed time goes), `IterateAttributed` and `IterateNoLoss` state what it does |
| Upload.IterateKeepsHead | src/GPSNode.cpp:164-259 | one pass removes only at the head; it goes on only when it dropped nothing; every dropped record is corrupt |
| Upload.IterateExits | src/GPSNode.cpp:185-259 | a pass goes on exactly when its chunk is non-empty and its POST got an answer; an empty chunk ends the loop drained with nothing sent (the `break`); a non-empty chunk with no usable response ends it by a response timeout after one POST (the `return`) |
| Upload.IterateEnds | src/GPSNode.cpp:185-259 | a pass sends at most one POST, exactly one when the loop goes on and then only after an answer; when it leaves, it does so at its own iteration, by a timeout on a silent reply or by draining the queue |
| Upload.IterateConfirmsOnAck | src/GPSNode.cpp:203-242 | a pass counts a 201 exactly when it goes on after a 201 reply; a timeout or any other status counts none, removes nothing as sent and, unless the chunk was empty, leaves the queue as it was |
| Upload.IterateRemovesOnCreated | src/GPSNode.cpp:217-230 | a non-empty chunk answered 201 goes on with one ack, removes the first `n` records (`n` the removal count, at most the queue's length), delivers the chunk's body and counts the records the chunk examined |
| Upload.IterateFramed | src/GPSNode.cpp:188-196 | the request a pass sends has the path, a non-empty body and a matching Content-Length |
| Upload.IterateCounted | src/GPSNode.cpp:185-258 | a pass's counters account exactly for its POST and its bytes; a POST answered 201 adds the reply's elapsed time to the success time, any other POST (a timeout, another status, an unparsable line) adds it to the error time, and a pass that sent nothing adds no time |
| Upload.IterateAttributed | src/GPSNode.cpp:172-257 | under either removal count, a pass counts the records its 201-answered body was built from, valid ones as uploaded and corrupt ones as CRC errors, counts every dropped record as a CRC error; the counted records are a prefix of the removed ones, with at most one record beyond them |
| Upload.IterateNoLoss | src/GPSNode.cpp:172-229 | with the corrected count, the records a pass removes carry exactly the delivered body and are counted |
| Upload.SendChunks | src/GPSNode.cpp:164-264 | the `for` loop from a given iteration; it has no contract of its own: the `SendChunks` lemmas below state what it keeps, including where each reply's time goes (`SendChunksTimed`), and `SendChunksSound` gathers them |
| Upload.Continue | src/GPSNode.cpp:164-259 | the loop after one pass: it ends there when the pass left the loop, and otherwise runs from the next iteration; no contract of its own: the `Continue` lemmas carry each `SendChunks` property across one pass |
| Upload.SendChunksKeepsHead | src/GPSNode.cpp:164-264 | the loop's queue is a suffix of the queue before it, preceded by the confirmed and then the dropped records |
| Upload.SendChunksDropsCorrupt | src/GPSNode.cpp:251-258 | every record the loop drops is corrupt |
| Upload.SendChunksAtMost | src/GPSNode.cpp:164 | at most one POST per remaining iteration, so at most ten per round |
| Upload.SendChunksEnds | src/GPSNode.cpp:164-259 | the loop ends by a response timeout, an emptied queue or its own test; when it stops by its test, the test fails at the iteration it ended at: ten iterations done, or the time budget spent |
| Upload.SendChunksEndsWithin | src/GPSNode.cpp:164 | the loop ends at an iteration no earlier than it started and no later than the tenth |
| Upload.SendChunksTimesOutOnSilence | src/GPSNode.cpp:202-259 | a response timeout ends the loop only at an iteration whose reply was silent, and draining only with an empty queue |
| Upload.SendChunksConfirmsOnAck | src/GPSNode.cpp:217-242 | with no 201 counted, nothing is removed as sent and nothing is delivered |
| Upload.SendChunksAcksCreated | src/GPSNode.cpp:203-242 | the loop counts exactly one ack for each 201 reply at the iterations from its start up to the one it ended at, and none otherwise: a timeout or a non-201 status never leads to a removal |
| Upload.CreatedReplyAt | src/GPSNode.cpp:217-221 | a positive count of 201 replies in a range of iterations names an iteration in that range whose reply was 201 |
| Upload.SendChunksIdle | src/GPSNode.cpp:252-258 | on an empty queue the loop sends nothing, removes nothing and counts nothing |
| Upload.SendChunksFramed | src/GPSNode.cpp:188-196 | every request the loop sends is well framed |
| Upload.SendChunksCounted | src/GPSNode.cpp:164-264 | each POST is one success or one error; every body byte is attributed once; success bytes equal the delivered bodies; read counters and the backlog do not move; the time counters are stated by `SendChunksTimed` |
| Upload.SendChunksTimed | src/GPSNode.cpp:203-241 | the success time grows by the elapsed times of the 201 replies before the iteration the loop ended at; the error time by those of the other answers before it, plus that of the silent reply it timed out on |
| Upload.SendChunksAttributed | src/GPSNode.cpp:164-264 | under either removal count, including the source's, the record counters grow by the valid and the corrupt records of the 201-answered bodies plus every dropped record, and those bodies are what was delivered; every counted record is among the removed ones (as a multiset), and the removed records exceed the counted by at most one per 201 |
| Upload.SendChunksNoLoss | src/GPSNode.cpp:164-264 | with the corrected count, the records removed after 201s carry exactly the delivered bodies, and each removed record is counted as a success or a CRC error |
| Upload.SendChunksSound | src/GPSNode.cpp:164-264 | all of the above for the whole loop, and it leaves only by its test at the iteration it ended at, by a silent reply there, or with the queue emptied; its acks are exactly the 201 replies before the iteration it ended at, so records leave as sent only after a 201; the success and error time grow as `SendChunksTimed` says |
| Upload.SendChunksOverExchanges | src/GPSNode.cpp:164-264 | the loop run on the replies read from the exchanges is sound, stops only on its test (ten iterations, or an exchange out of time), times out only on an exchange with no usable response, and drains only an emptied queue |
| Upload.SendChunksAcksOverExchanges | src/GPSNode.cpp:203-242 | on the replies read from the exchanges, the loop's acks are exactly the exchanges before its last iteration answered with at least 15 bytes whose status reads 201; a loop that removed records as sent had such an exchange |
| Upload.UploadRound | src/GPSNode.cpp:136-267 | an empty queue does nothing; a failed connect counts one error and removes nothing; otherwise the loop runs, and in every case the round is sound; a round that stops did ten iterations or found the budget spent at the iteration it stopped at, one that times out got no usable response there, and one that drains left the queue empty; the round counts exactly one ack per exchange answered with status 201 before the iteration it ended at, and removes records as sent only when some exchange was so answered; a failed connect adds its time to the error time and none to the success time, and otherwise each exchange's elapsed time goes to the success time when it was answered 201 and to the error time when it was another answer or the silent one the round timed out on |
| UploadFacts.SmallQueueExaminedWhole | src/GPSNode.cpp:172 | a queue whose whole body stays below the ceiling is examined to its end |
| UploadFacts.RejectedRetriesSameChunk | src/GPSNode.cpp:164-241 | a server that never answers 201 gets the same chunk on every remaining iteration; nothing leaves the queue; every POST is one error |
| UploadFacts.SmallBacklogDelivered | src/GPSNode.cpp:164-229 | valid records below the ceiling go out in one POST, and a 201 empties the queue with every record and byte counted as a success |
| UploadFacts.AsWrittenRemovesUnsentRecord | src/GPSNode.cpp:172-229 | when the build stopped at the ceiling, the source's count removes one record more than was examined, and that record's line is not in the sent body |
| UploadFacts.AsWrittenPassLosesRecord | src/GPSNode.cpp:172-229 | in that case a 201 removes a valid record that was never sent, so the pass loses it |
| UploadFacts.CorrectedRemovesSentRecords | src/GPSNode.cpp:172-229 | the corrected count removes exactly the records the body and the counts were built from |
| Node.UploadStage | src/GPSNode.cpp:82-85 | a round runs exactly when connected with a backlog above the threshold; it removes only at the head; it never drops a record from a valid queue |
| Node.ReportStage | src/GPSNode.cpp:87-91 | a report runs exactly when connected with the metrics timer due; it records the backlog and changes nothing else |
| Node.ReadStage | src/GPSNode.cpp:95-133 | a read tick runs exactly when its timer is due; it appends at most the record read, only if valid, and counts exactly one read |
| Node.Step | src/GPSNode.cpp:77-134 | nothing happens before setup; the stages run when due; the queue loses records only at its head and gains only a valid record at its tail; no cumulative counter decreases; a valid queue stays valid and loses nothing as corrupt |
| Node.RoundKeepsValid | src/GPSNode.cpp:82-85 | a round on a queue of validated records drops nothing and leaves a queue of validated records |
| Node.ValidHeadDropsNothing | src/GPSNode.cpp:111-114 | a queue holding only validated records never has a record dropped as corrupt |

## Left out

- The `clearData` handler (`src/GPSNode.cpp:58-64`) is a framework callback
  outside the loop. It empties the queue and has no return value.
- MQTT publishing is framework I/O.
  - The metrics snapshot is returned as name/value samples.
  - The live `rmc`/`gga` publication is returned as an optional output.
- The model carries no connection state.
  - `client.stop`, the response drain (`src/GPSNode.cpp:246-248`) and the
    queue `flush` are not modelled.
  - Each iteration's reply is independent of earlier leftover bytes.
- The watchdog, `yield`, `delay`, `Serial.printf`, `malloc` and the
  constructor and setup code are left out. Only the `_initialized` flag is
  kept.
- `millis()` is not modelled. The time deltas added to the counters are
  script values.
  - The 10 s budget and the 5 s wait are script events.
  - Wrap-around of `millis` and of the signed `int` time arithmetic is not
    modelled.
- The counters are unbounded `nat`s. Overflow of the firmware's integer
  counters is not modelled.
- The upload buffer is `malloc(UPLOAD_BUFFER_LENGTH)` (`src/GPSNode.cpp:34`),
  with the size from `GPSNode.hpp`, which is not part of this model. The model
  assumes the `strcat`s (`src/GPSNode.cpp:175-176`) never overflow it. A chunk
  can reach 1149 bytes plus one record and its newline, plus the NUL.
- The `memcpy` over-read past the line read (`src/GPSNode.cpp:298`) is not
  modelled. Only the NUL-terminated result is.
- Stored records shorter than 3 characters are out of scope. The validator
  would read out of bounds for them, and assembly never produces them: it
  always yields at least the 6-character prefix. Corruption of stored
  records on the card is also not modelled.
- `GPS_RECORD_LENGTH`, `UPLOAD_MIN_SAMPLES` and the upload path come from
  `GPSNode.hpp` and the framework configuration, which are not part of this
  model. They are fields of `Node.Config`. The record length is required to
  hold the 6-character prefix.
- Connectivity is sampled once per pass, for both `isConnected` checks
  (`src/GPSNode.cpp:82` and `:120`).
- Timer rescheduling (`check`/`tick`) is not modelled. Each pass is told
  which timers are due.
- Node.Step: its invariants are stated for one pass of `loop`. A run of
  many passes is not a member of the model. The invariants carry over to a
  run pass by pass.

## Findings

| source | as written | input that shows it | evidently intended | confidence | as-written member | corrected member |
|---|---|---|---|---|---|---|
| src/GPSNode.cpp:172-229 | After a 201, `removeElements(sdRecordsCount)` runs. The post-increment in `peek(..., sdRecordsCount++)` leaves `sdRecordsCount` at the examined count plus one, so when the build stopped at the 1150-byte ceiling, the record peeked by the failing test is removed without having been sent | a queue of 166 copies of the valid record `$A*41\r` (7 bytes with its newline): the chunk holds 165 records (1155 bytes); the 166th is peeked and the ceiling test fails; a 201 removes all 166, though only 165 were sent | remove `sdRecordsOK + sdRecordsError` records, the ones the chunk was built from | high; not executed | UploadFacts.AsWrittenPassLosesRecord | Upload.SendChunksNoLoss |

Both removal counts are modelled:

- `Removal.AsWritten` is the code. `UploadFacts.AsWrittenRemovesUnsentRecord`
  and `UploadFacts.AsWrittenPassLosesRecord` show the lost record.
- `Removal.Corrected` is the intended count. For it, `Upload.IterateNoLoss`,
  `Upload.SendChunksNoLoss` and the `NoLoss` clause of `Upload.UploadRound`'s
  contract prove that nothing is lost.
- `Node.Config` selects the count.

=== FILE: acquisition.dfy ===
/** Record acquisition: assembling a record from what the serial port returned,
    the bounded retry of `_readGpsRecord`, and the read tick of `loop`, which
    alternates GGA and RMC sentences, pushes valid records and counts the rest. */
module Acquisition {
  import opened Wrappers
  import Nmea
  import opened RecordQueue
  import opened Metrics

  datatype Sentence = GGA | RMC

  /** The token the serial port is scanned for; the assembled record starts with it. */
  function Prefix(kind: Sentence): string {
    match kind
    case GGA => "$GPGGA"
    case RMC => "$GPRMC"
  }

  /** The property a captured sentence of this kind is published under. */
  function Topic(kind: Sentence): string {
    match kind
    case GGA => "gga"
    case RMC => "rmc"
  }

  /** Attempts one read tick makes before giving up. */
  const MAX_ATTEMPTS: nat := 3

  /** The C string a buffer holds: its characters up to the first NUL. */
  function CStr(s: string): (r: string)
    ensures r <= s
    ensures '\0' !in r
    ensures |r| < |s| ==> s[|r|] == '\0'
  {
    if |s| == 0 || s[0] == '\0' then [] else [s[0]] + CStr(s[1..])
  }

  /** The record buffer after `strcpy(prefix)`, the copy of the line read, and the
      forced terminator at `recordLength - 1`: prefix and line, truncated. */
  function Assemble(kind: Sentence, line: string, recordLength: nat): (r: Record)
    requires |Prefix(kind)| < recordLength
    ensures |r| == Min(|Prefix(kind)| + |CStr(line)|, recordLength - 1)
    ensures r == (Prefix(kind) + CStr(line))[..|r|]
    ensures Prefix(kind) <= r
  {
    var full := Prefix(kind) + CStr(line);
    if |full| <= recordLength - 1 then full else full[..recordLength - 1]
  }

  /** What one `find` plus `readStringUntil('\n')` returned on attempt `k`; once the
      scripted port has nothing more, both time out and the line is empty. */
  function LineAt(lines: seq<string>, k: nat): string {
    if k < |lines| then lines[k] else ""
  }

  /** Attempt `k` of a read tick assembles a record that passes the validator. */
  predicate AttemptValid(valid: Record -> bool, kind: Sentence, lines: seq<string>, recordLength: nat, k: nat)
    requires |Prefix(kind)| < recordLength
  {
    valid(Assemble(kind, LineAt(lines, k), recordLength))
  }

  /** The result of `_readGpsRecord`: the validity it returns, the record left in
      the buffer, and how many lines it consumed. */
  datatype ReadOutcome = ReadOutcome(valid: bool, record: Record, attempts: nat)

  /** Whether each of the three attempts would assemble a valid record. */
  function Verdicts(valid: Record -> bool, kind: Sentence, lines: seq<string>, recordLength: nat): (v: seq<bool>)
    requires |Prefix(kind)| < recordLength
    ensures |v| == MAX_ATTEMPTS
    ensures forall k :: 0 <= k < MAX_ATTEMPTS ==> v[k] == AttemptValid(valid, kind, lines, recordLength, k)
  {
    seq(MAX_ATTEMPTS, k requires 0 <= k < MAX_ATTEMPTS => AttemptValid(valid, kind, lines, recordLength, k))
  }

  /** The do/while of `_readGpsRecord` entered with counter `t`, given the
      attempts' verdicts: the index of the last attempt made, going round again
      while invalid and `t++ < 2`. */
  function LastAttempt(verdicts: seq<bool>, t: nat): (last: nat)
    requires |verdicts| == MAX_ATTEMPTS
    requires t < MAX_ATTEMPTS
    decreases MAX_ATTEMPTS - t
    ensures t <= last < MAX_ATTEMPTS
    ensures forall k :: t <= k < last ==> !verdicts[k]
    ensures last < MAX_ATTEMPTS - 1 ==> verdicts[last]
  {
    if !verdicts[t] && t < 2 then LastAttempt(verdicts, t + 1)
    else t
  }

  /** `_readGpsRecord`: at most three attempts, stopping at the first valid
      record; it returns the validity of the last attempt, whose record stays in
      the buffer. */
  function ReadRecord(valid: Record -> bool, kind: Sentence, lines: seq<string>, recordLength: nat): (r: ReadOutcome)
    requires |Prefix(kind)| < recordLength
    ensures 1 <= r.attempts <= MAX_ATTEMPTS
    ensures r.record == Assemble(kind, LineAt(lines, r.attempts - 1), recordLength)
    ensures r.valid == valid(r.record)
    ensures forall k :: 0 <= k < r.attempts - 1 ==> !AttemptValid(valid, kind, lines, recordLength, k)
    ensures !r.valid ==> r.attempts == MAX_ATTEMPTS
  {
    var last := LastAttempt(Verdicts(valid, kind, lines, recordLength), 0);
    var record := Assemble(kind, LineAt(lines, last), recordLength);
    ReadOutcome(valid(record), record, last + 1)
  }

  /** A captured record published live under its sentence kind. */
  datatype Publication = Publication(topic: string, payload: Record)

  /** State after a read tick: the queue, the counters, the flag selecting the
      next kind (`_messageType`, true for GGA), the kind read, the lines consumed
      and the live publication, if any. */
  datatype Tick = Tick(queue: seq<Record>, metrics: Metrics, readGga: bool, kind: Sentence,
                       consumed: nat, live: Option<Publication>)

  /** The read half of `loop`: read the selected kind, flip the selector, then
      push and count a success, or count an error. The live publication picks its
      topic from the already flipped selector. */
  function ReadTick(valid: Record -> bool, q: seq<Record>, m: Metrics, readGga: bool, lines: seq<string>,
                    recordLength: nat, connected: bool): (r: Tick)
    requires 6 < recordLength
    ensures r.readGga == !readGga
    ensures r.kind == (if readGga then GGA else RMC)
    ensures var read := ReadRecord(valid, r.kind, lines, recordLength);
            && r.consumed == read.attempts
            && (read.valid ==>
                  r.queue == q + [read.record] && r.metrics == m.(recordsReadSuccess := m.recordsReadSuccess + 1))
            && (!read.valid ==>
                  r.queue == q && r.metrics == m.(recordsReadError := m.recordsReadError + 1))
            && (r.live.Some? <==> connected && read.valid)
            && (r.live.Some? ==> r.live.value == Publication(Topic(r.kind), read.record))
  {
    var kind := if readGga then GGA else RMC;
    var read := ReadRecord(valid, kind, lines, recordLength);
    var messageType := !readGga;
    if read.valid then
      var live := if connected then Some(Publication(if messageType then "rmc" else "gga", read.record)) else None;
      Tick(Push(q, read.record), RecordRead(m, true), messageType, kind, read.attempts, live)
    else
      Tick(q, RecordRead(m, false), messageType, kind, read.attempts, None)
  }

  /** The line a receiver sends after the prefix of `kind`: the remaining
      fields, `*`, the checksum of everything after `$`, and the carriage return
      that `readStringUntil('\n')` leaves in place. */
  function SentenceLine(kind: Sentence, fields: string, upper: bool): string {
    fields + "*" + Nmea.HexPair(Nmea.XorAll(Prefix(kind)[1..] + fields) as nat, upper) + "\r"
  }

  /** Such a line, when it has no NUL and fits the record, is assembled
      unchanged behind the prefix and passes the checksum. */
  lemma SentenceLineAssembled(kind: Sentence, fields: string, upper: bool, recordLength: nat)
    requires '\0' !in fields
    requires |Prefix(kind)| + |SentenceLine(kind, fields, upper)| < recordLength
    ensures Assemble(kind, SentenceLine(kind, fields, upper), recordLength) == Prefix(kind) + SentenceLine(kind, fields, upper)
    ensures Valid(Assemble(kind, SentenceLine(kind, fields, upper), recordLength))
  {
    var b := Nmea.XorAll(Prefix(kind)[1..] + fields) as nat;
    var line := SentenceLine(kind, fields, upper);
    SentenceLineNoNul(kind, fields, upper);
    NoNulIsCStr(line);
    assert Assemble(kind, line, recordLength) == Prefix(kind) + line;
    SentenceEnvelope(kind, fields, upper);
    Nmea.EnvelopeChecksum(Prefix(kind)[1..] + fields, b, upper);
  }

  /** The checksum digits are never NUL, so a NUL-free sentence line stays NUL-free. */
  lemma SentenceLineNoNul(kind: Sentence, fields: string, upper: bool)
    requires '\0' !in fields
    ensures '\0' !in SentenceLine(kind, fields, upper)
  {
    var b := Nmea.XorAll(Prefix(kind)[1..] + fields) as nat;
    var digits := if upper then Nmea.HEX_UPPER else Nmea.HEX_LOWER;
    assert forall k :: 0 <= k < 16 ==> digits[k] != '\0';
    assert '\0' !in Nmea.HexPair(b, upper);
  }

  /** Prefix and line together are the NMEA envelope `$`, payload, `*`, two hex digits, CR. */
  lemma SentenceEnvelope(kind: Sentence, fields: string, upper: bool)
    ensures var b := Nmea.XorAll(Prefix(kind)[1..] + fields) as nat;
            Prefix(kind) + SentenceLine(kind, fields, upper)
              == "$" + (Prefix(kind)[1..] + fields) + "*" + Nmea.HexPair(b, upper) + "\r"
  {
    assert Prefix(kind) == "$" + Prefix(kind)[1..];
  }

  /** A well-formed sentence that fits the record is captured on the first
      attempt: pushed as read, counted once as a success. */
  lemma ValidSentenceCaptured(q: seq<Record>, m: Metrics, readGga: bool, fields: string,
                              upper: bool, recordLength: nat, connected: bool, rest: seq<string>)
    requires 6 < recordLength
    requires '\0' !in fields
    requires |Prefix(if readGga then GGA else RMC)| + |SentenceLine(if readGga then GGA else RMC, fields, upper)| < recordLength
    ensures var kind := if readGga then GGA else RMC;
            var line := SentenceLine(kind, fields, upper);
            var r := ReadTick(Valid, q, m, readGga, [line] + rest, recordLength, connected);
            && r.consumed == 1
            && r.queue == q + [Prefix(kind) + line]
            && r.metrics.recordsReadSuccess == m.recordsReadSuccess + 1
            && r.metrics.recordsReadError == m.recordsReadError
  {
    var kind := if readGga then GGA else RMC;
    var line := SentenceLine(kind, fields, upper);
    var lines := [line] + rest;
    assert LineAt(lines, 0) == line;
    SentenceLineAssembled(kind, fields, upper, recordLength);
    assert AttemptValid(Valid, kind, lines, recordLength, 0);
    var read := ReadRecord(Valid, kind, lines, recordLength);
    assert read.attempts == 1;
  }

  /** A line without NUL is its own C string. */
  lemma {:induction false} NoNulIsCStr(s: string)
    requires '\0' !in s
    ensures CStr(s) == s
  {
    if |s| > 0 {
      NoNulIsCStr(s[1..]);
      assert s == [s[0]] + s[1..];
    }
  }

  /** A stalled receiver (every find and read times out) leaves the bare prefix in
      the buffer, which fails the checksum: three attempts, no push, one error. */
  lemma StalledReceiverCountsError(q: seq<Record>, m: Metrics, readGga: bool,
                                   recordLength: nat, connected: bool)
    requires 6 < recordLength
    ensures var r := ReadTick(Valid, q, m, readGga, [], recordLength, connected);
            && r.consumed == MAX_ATTEMPTS
            && r.queue == q
            && r.metrics.recordsReadError == m.recordsReadError + 1
            && r.metrics.recordsReadSuccess == m.recordsReadSuccess
            && r.live == None
  {
    var kind := if readGga then GGA else RMC;
    var bare := Assemble(kind, "", recordLength);
    assert bare == Prefix(kind);
    assert Nmea.Payload(bare) == ['G'];
    assert Nmea.XorAll(['G']) == 0x47;
    assert !Valid(bare);
  }
}

=== FILE: chunk.dfy ===
/** Building one upload chunk: records are peeked from the queue head, valid
    ones appended with a newline, corrupt ones skipped, while the buffer is
    below the size ceiling. */
module UploadChunk {
  import opened Wrappers
  import opened RecordQueue

  /** Appending continues only while the buffer holds fewer bytes than this. */
  const CHUNK_CEILING: nat := 1150

  /** What a run of records contributes to a chunk body: every valid one followed
      by a newline, in queue order; corrupt ones contribute nothing. */
  function Body(valid: Record -> bool, rs: seq<Record>): string {
    if |rs| == 0 then ""
    else Body(valid, rs[..|rs| - 1]) + (if valid(rs[|rs| - 1]) then rs[|rs| - 1] + "\n" else "")
  }

  function ValidCount(valid: Record -> bool, rs: seq<Record>): nat {
    if |rs| == 0 then 0 else ValidCount(valid, rs[..|rs| - 1]) + (if valid(rs[|rs| - 1]) then 1 else 0)
  }

  function InvalidCount(valid: Record -> bool, rs: seq<Record>): nat {
    if |rs| == 0 then 0 else InvalidCount(valid, rs[..|rs| - 1]) + (if valid(rs[|rs| - 1]) then 0 else 1)
  }

  /** The outcome of one build pass: the buffer, `sdRecordsOK`, `sdRecordsError`,
      and `sdRecordsCount`, the cursor after its last post-increment. */
  datatype Chunk = Chunk(body: string, ok: nat, err: nat, peeked: nat) {
    /** Records actually looked at and either appended or skipped. */
    function Examined(): nat { ok + err }
  }

  /** The body built from the first `j` records is still below the ceiling. */
  predicate BelowCeiling(valid: Record -> bool, q: seq<Record>, j: nat)
    requires j <= |q|
  {
    |Body(valid, q[..j])| < CHUNK_CEILING
  }

  /** The state the build loop keeps between iterations, with cursor `c`. */
  ghost predicate Filled(valid: Record -> bool, q: seq<Record>, c: nat, body: string, ok: nat, err: nat) {
    && c <= |q|
    && c == ok + err
    && body == Body(valid, q[..c])
    && ok == ValidCount(valid, q[..c])
    && err == InvalidCount(valid, q[..c])
    && forall j :: 0 <= j < c ==> BelowCeiling(valid, q, j)
  }

  /** A build pass that stopped after examining `e` records of `q`: every
      append happened below the ceiling, and it stopped at the queue end or at
      the ceiling. */
  ghost predicate StoppedAt(valid: Record -> bool, q: seq<Record>, e: nat) {
    && e <= |q|
    && (forall j :: 0 <= j < e ==> BelowCeiling(valid, q, j))
    && (e == |q| || !BelowCeiling(valid, q, e))
  }

  /** One more record extends the body by that record's contribution. */
  lemma BodyStep(valid: Record -> bool, q: seq<Record>, c: nat)
    requires c < |q|
    ensures Body(valid, q[..c + 1]) == Body(valid, q[..c]) + (if valid(q[c]) then q[c] + "\n" else "")
    ensures ValidCount(valid, q[..c + 1]) == ValidCount(valid, q[..c]) + (if valid(q[c]) then 1 else 0)
    ensures InvalidCount(valid, q[..c + 1]) == InvalidCount(valid, q[..c]) + (if valid(q[c]) then 0 else 1)
  {
    assert q[..c + 1][..c] == q[..c];
  }

  /** Where a build pass over the first `k` records stops: the first index
      whose prefix body has reached the ceiling, or `k` if none has. */
  function FirstStop(valid: Record -> bool, q: seq<Record>, k: nat): (e: nat)
    requires k <= |q|
    ensures e <= k
    ensures forall j :: 0 <= j < e ==> BelowCeiling(valid, q, j)
    ensures e == k || !BelowCeiling(valid, q, e)
  {
    if k == 0 then 0
    else
      var e := FirstStop(valid, q, k - 1);
      if e < k - 1 || !BelowCeiling(valid, q, k - 1) then e else k
  }

  /** One build pass from an empty buffer and cursor 0: it examines the records
      up to the stopping point, and its cursor ends one past them because the
      failing test also post-increments it. */
  function BuildChunk(valid: Record -> bool, q: seq<Record>): (r: Chunk)
    ensures StoppedAt(valid, q, r.Examined())
    ensures r.peeked == r.Examined() + 1
    ensures r.body == Body(valid, q[..r.Examined()])
    ensures r.ok == ValidCount(valid, q[..r.Examined()]) && r.err == InvalidCount(valid, q[..r.Examined()])
  {
    var e := FirstStop(valid, q, |q|);
    CountsCover(valid, q[..e]);
    Chunk(Body(valid, q[..e]), ValidCount(valid, q[..e]), InvalidCount(valid, q[..e]), e + 1)
  }

  /** Every record of a run is counted as valid or as corrupt. */
  lemma {:induction false} CountsCover(valid: Record -> bool, rs: seq<Record>)
    ensures ValidCount(valid, rs) + InvalidCount(valid, rs) == |rs|
  {
    if |rs| > 0 {
      CountsCover(valid, rs[..|rs| - 1]);
    }
  }

  /** The stopping point of a build pass is unique: the first prefix that
      reaches the ceiling, or the whole queue. */
  lemma StopUnique(valid: Record -> bool, q: seq<Record>, e1: nat, e2: nat)
    requires StoppedAt(valid, q, e1) && StoppedAt(valid, q, e2)
    ensures e1 == e2
  {
  }

  /** The `while (peek(..., sdRecordsCount++) && strlen(buf) < 1150)` loop as
      the source writes it: the cursor is incremented even by the peek that fails
      and by the test that stops at the ceiling. It computes the build pass above. */
  method BuildChunkLoop(valid: Record -> bool, q: seq<Record>) returns (r: Chunk)
    ensures r == BuildChunk(valid, q)
    ensures r.peeked == r.ok + r.err + 1
  {
    var count: nat := 0;
    var ok: nat := 0;
    var err: nat := 0;
    var buf := "";
    assert q[..0] == [];
    while true
      invariant Filled(valid, q, count, buf, ok, err)
      decreases |q| - count
    {
      var index := count;
      count := count + 1;
      var record := Peek(q, index);
      if record.None? || |buf| >= CHUNK_CEILING {
        StopUnique(valid, q, index, BuildChunk(valid, q).Examined());
        r := Chunk(buf, ok, err, count);
        return;
      }
      BodyStep(valid, q, index);
      if valid(record.value) {
        buf := buf + record.value + "\n";
        ok := ok + 1;
      } else {
        err := err + 1;
      }
    }
  }

  /** Bodies of consecutive runs concatenate. */
  lemma {:induction false} BodyAppend(valid: Record -> bool, a: seq<Record>, b: seq<Record>)
    ensures Body(valid, a + b) == Body(valid, a) + Body(valid, b)
    ensures ValidCount(valid, a + b) == ValidCount(valid, a) + ValidCount(valid, b)
    ensures InvalidCount(valid, a + b) == InvalidCount(valid, a) + InvalidCount(valid, b)
  {
    if |b| == 0 {
      assert a + b == a;
    } else {
      var b' := b[..|b| - 1];
      BodyAppend(valid, a, b');
      assert (a + b)[..|a + b| - 1] == a + b';
    }
  }

  /** An empty body means no valid record was examined. */
  lemma EmptyBodyAllCorrupt(valid: Record -> bool, rs: seq<Record>)
    requires |Body(valid, rs)| == 0
    ensures ValidCount(valid, rs) == 0 && InvalidCount(valid, rs) == |rs|
    ensures AllCorrupt(valid, rs)
  {
    if |rs| > 0 {
      var rs' := rs[..|rs| - 1];
      EmptyBodyAllCorrupt(valid, rs');
      assert forall k :: 0 <= k < |rs'| ==> rs[k] == rs'[k];
    }
  }

  /** A run of corrupt records contributes no body and counts as corrupt throughout. */
  lemma {:induction false} AllCorruptCounts(valid: Record -> bool, rs: seq<Record>)
    requires AllCorrupt(valid, rs)
    ensures Body(valid, rs) == "" && ValidCount(valid, rs) == 0 && InvalidCount(valid, rs) == |rs|
  {
    if |rs| > 0 {
      AllCorruptCounts(valid, rs[..|rs| - 1]);
    }
  }
}

=== FILE: http.dfy ===
/** The slice of HTTP/1.1 the uploader speaks: the POST it writes (section 3
    of RFC 9112 for the request line, section 8.6 of RFC 9110 for
    Content-Length) and the two-token reading of the status line it gets back
    (section 4 of RFC 9112; `201 Created` is section 15.3.2 of RFC 9110). */
module Http {
  import opened Wrappers

  /** The Host header value, written literally rather than from the host setting. */
  const HOST: string := "api.devices.stutzthings.com"

  /** The wait loop gives up unless at least this many response bytes are available. */
  const MIN_RESPONSE_BYTES: nat := 15

  const DIGITS: string := "0123456789"

  /** `%d` of a non-negative number: decimal digits, no leading zero. */
  function Decimal(n: nat): (s: string)
    ensures 0 < |s|
    ensures forall k :: 0 <= k < |s| ==> '0' <= s[k] <= '9'
    ensures 1 < |s| ==> s[0] != '0'
  {
    if n < 10 then [DIGITS[n]] else Decimal(n / 10) + [DIGITS[n % 10]]
  }

  /** Reads a run of decimal digits back into a number; anything else is `None`. */
  function ParseDecimal(s: string): Option<nat> {
    if |s| == 0 then None
    else if !('0' <= s[|s| - 1] <= '9') then None
    else
      var d := s[|s| - 1] as int - '0' as int;
      if |s| == 1 then Some(d)
      else match ParseDecimal(s[..|s| - 1])
        case None => None
        case Some(v) => Some(10 * v + d)
  }

  /** A number written by `%d` reads back as itself. */
  lemma {:induction false} DecimalRoundTrip(n: nat)
    ensures ParseDecimal(Decimal(n)) == Some(n)
  {
    if n >= 10 {
      DecimalRoundTrip(n / 10);
      var s := Decimal(n);
      var c := DIGITS[n % 10];
      assert s == Decimal(n / 10) + [c];
      assert s[..|s| - 1] == Decimal(n / 10) && s[|s| - 1] == c;
      DigitValue(n % 10);
    } else {
      DigitValue(n);
    }
  }

  /** The digit written for `d` reads back as `d`. */
  lemma DigitValue(d: nat)
    requires d < 10
    ensures '0' <= DIGITS[d] <= '9' && DIGITS[d] as int - '0' as int == d
  {
  }

  /** One POST over the upload connection: the path, the Content-Length value as
      written, and the body. */
  datatype Request = Request(path: string, contentLength: string, body: string)

  /** The request for one chunk: Content-Length is the length of the very body sent. */
  function Post(path: string, body: string): (r: Request)
    ensures r.path == path && r.body == body
    ensures ParseDecimal(r.contentLength) == Some(|r.body|)
  {
    DecimalRoundTrip(|body|);
    Request(path, Decimal(|body|), body)
  }

  /** The request line: method, the configured path after `/`, and the version. */
  function RequestLine(path: string): string {
    "POST /" + path + " HTTP/1.1"
  }

  const CRLF: string := "\r\n"

  /** The Host field line. */
  const HOST_FIELD: string := "Host: " + HOST

  /** The Content-Length field name; its value follows it on the line. */
  const CONTENT_LENGTH: string := "Content-Length: "

  /** The Content-Type field line. */
  const CONTENT_TYPE_FIELD: string := "Content-Type: text/plain"

  /** The header block printed before the body. */
  function Head(r: Request): string {
    RequestLine(r.path) + CRLF + HOST_FIELD + CRLF + CONTENT_LENGTH + r.contentLength + CRLF
      + CONTENT_TYPE_FIELD + CRLF + CRLF
  }

  /** The bytes written to the connection: the header block, then the body. A
      reader that takes lines up to CRLF, then header fields up to the empty
      line, gets back the request line, the Content-Length value as written, and
      exactly the body, provided neither the path nor that value holds a CR. */
  function Wire(r: Request): (w: string)
    ensures '\r' !in r.path && '\r' !in r.contentLength ==>
              ParseRequest(w) == Some(Parsed(RequestLine(r.path), Some(r.contentLength), r.body))
  {
    HeadReadsBack(r);
    Head(r) + r.body
  }

  /** The head and body read back line by line: the request line, the Host
      line passed over, the Content-Length value kept, the Content-Type line
      passed over, and after the empty line the body. */
  lemma HeadReadsBack(r: Request)
    ensures '\r' !in r.path && '\r' !in r.contentLength ==>
              ParseRequest(Head(r) + r.body) == Some(Parsed(RequestLine(r.path), Some(r.contentLength), r.body))
  {
    if '\r' !in r.path && '\r' !in r.contentLength {
      var line := RequestLine(r.path);
      var length := CONTENT_LENGTH + r.contentLength;
      var afterKind := CRLF + r.body;
      var afterLength := CONTENT_TYPE_FIELD + CRLF + afterKind;
      var afterHost := length + CRLF + afterLength;
      Regroup(line, CRLF, HOST_FIELD, CONTENT_LENGTH, r.contentLength, CONTENT_TYPE_FIELD, r.body);
      ReadLineOf(line, HOST_FIELD + CRLF + afterHost);
      FieldSkipped(line, HOST_FIELD, afterHost, None);
      ReadLineOf(length, afterLength);
      assert length[..|CONTENT_LENGTH|] == CONTENT_LENGTH && length[|CONTENT_LENGTH|..] == r.contentLength;
      FieldSkipped(line, CONTENT_TYPE_FIELD, afterKind, Some(r.contentLength));
      ReadLineOf([], r.body);
    }
  }

  /** The header block and body, regrouped line by line as a reader takes them. */
  lemma Regroup(a: string, c: string, h: string, n: string, v: string, k: string, b: string)
    ensures a + c + h + c + n + v + c + k + c + c + b == a + c + (h + c + ((n + v) + c + (k + c + (c + b))))
  {
  }

  /** A header line that is not Content-Length is passed over. */
  lemma FieldSkipped(requestLine: string, field: string, rest: string, contentLength: Option<string>)
    requires field == HOST_FIELD || field == CONTENT_TYPE_FIELD
    ensures ReadFields(requestLine, field + CRLF + rest, contentLength) == ReadFields(requestLine, rest, contentLength)
  {
    assert '\r' !in field;
    ReadLineOf(field, rest);
    assert field[..|CONTENT_LENGTH|] != CONTENT_LENGTH by {
      if field == HOST_FIELD {
        assert field[0] != CONTENT_LENGTH[0];
      } else {
        assert field[8] != CONTENT_LENGTH[8];
      }
    }
  }

  /** What a reader of the bytes gets: the request line, the last Content-Length
      value, if any, and everything after the empty line. */
  datatype Parsed = Parsed(requestLine: string, contentLength: Option<string>, body: string)

  /** The characters up to the first CR, which must start a CRLF, and what
      follows that CRLF; `None` without one. */
  function ReadLine(s: string): (r: Option<Split>)
    ensures r.Some? ==> '\r' !in r.value.token && s == r.value.token + CRLF + r.value.rest
  {
    if |s| == 0 then None
    else if s[0] == '\r' then
      if 2 <= |s| && s[1] == '\n' then Some(Split([], s[2..])) else None
    else match ReadLine(s[1..])
      case None => None
      case Some(line) =>
        assert s == [s[0]] + s[1..];
        Some(Split([s[0]] + line.token, line.rest))
  }

  /** Header lines up to the empty line; the body is all that follows it. */
  function ReadFields(requestLine: string, s: string, contentLength: Option<string>): Option<Parsed>
    decreases |s|
  {
    match ReadLine(s)
    case None => None
    case Some(line) =>
      if |line.token| == 0 then Some(Parsed(requestLine, contentLength, line.rest))
      else if |CONTENT_LENGTH| <= |line.token| && line.token[..|CONTENT_LENGTH|] == CONTENT_LENGTH then
        ReadFields(requestLine, line.rest, Some(line.token[|CONTENT_LENGTH|..]))
      else ReadFields(requestLine, line.rest, contentLength)
  }

  /** Reads a request: its first line, then its header fields and body. */
  function ParseRequest(w: string): Option<Parsed> {
    match ReadLine(w)
    case None => None
    case Some(line) => ReadFields(line.token, line.rest, None)
  }

  /** A line without CR reads back as itself, with what follows its CRLF. */
  lemma {:induction false} ReadLineOf(token: string, rest: string)
    requires '\r' !in token
    ensures ReadLine(token + CRLF + rest) == Some(Split(token, rest))
  {
    var s := token + CRLF + rest;
    if |token| > 0 {
      assert s[0] == token[0] && token[0] in token;
      ReadLineOf(token[1..], rest);
      assert s[1..] == token[1..] + CRLF + rest;
      assert [s[0]] + token[1..] == token;
    } else {
      assert s[0] == '\r' && s[1] == '\n' && s[2..] == rest;
    }
  }

  /** The request for a chunk frames it: read back, its Content-Length value is
      the number of bytes after the empty line, and those bytes are the chunk. */
  lemma PostFramesBody(path: string, body: string)
    requires '\r' !in path
    ensures var p := ParseRequest(Wire(Post(path, body)));
            && p.Some? && p.value.requestLine == RequestLine(path) && p.value.body == body
            && p.value.contentLength.Some? && ParseDecimal(p.value.contentLength.value) == Some(|p.value.body|)
  {
    var r := Post(path, body);
    assert '\r' !in r.contentLength by {
      forall k | 0 <= k < |r.contentLength| ensures r.contentLength[k] != '\r' {
        assert '0' <= r.contentLength[k] <= '9';
      }
    }
  }

  /** A token read off the front of a stream, and what is left after it. */
  datatype Split = Split(token: string, rest: string)

  /** What `readStringUntil(' ')` returns, and what is left after it: the
      characters before the first space, which is consumed; all of it if there
      is no space. */
  function ReadUntilSpace(s: string): (r: Split)
    ensures ' ' !in r.token
    ensures (r.token == s && r.rest == []) || s == r.token + " " + r.rest
  {
    if |s| == 0 then Split([], [])
    else if s[0] == ' ' then Split([], s[1..])
    else
      var tail := ReadUntilSpace(s[1..]);
      assert s == [s[0]] + s[1..];
      Split([s[0]] + tail.token, tail.rest)
  }

  /** The three ways the uploader reads a response. */
  datatype Status = Created | Rejected(code: string) | Unparsable

  /** An empty first token is an invalid response; otherwise the second token
      decides, and only the exact text `201` is success. */
  function Classify(response: string): (r: Status)
    ensures r.Unparsable? <==> |response| == 0 || response[0] == ' '
    ensures r.Rejected? ==> r.code != "201" && ' ' !in r.code
  {
    var version := ReadUntilSpace(response);
    if |version.token| == 0 then Unparsable
    else
      var code := ReadUntilSpace(version.rest).token;
      if code == "201" then Created else Rejected(code)
  }

  /** Every status line `<version> 201` followed by the end or by a space is
      read as success. */
  lemma CreatedIfStatus201(version: string, rest: string)
    requires 0 < |version| && ' ' !in version
    requires rest == [] || rest[0] == ' '
    ensures Classify(version + " 201" + rest) == Created
  {
    var s := version + " 201" + rest;
    assert s == version + " " + ("201" + rest);
    SplitAtFirstSpace(version, "201" + rest);
    if rest == [] {
      assert "201" + rest == "201";
      SplitAtFirstSpace("201", []);
    } else {
      assert "201" + rest == "201" + " " + rest[1..];
      SplitAtFirstSpace("201", rest[1..]);
    }
  }

  /** Success is read only from such a line: a non-empty space-free first token,
      then ` 201`, then the end or a space. */
  lemma CreatedOnlyIfStatus201(response: string)
    requires Classify(response) == Created
    ensures var version := ReadUntilSpace(response).token;
            && 0 < |version| && ' ' !in version
            && (response == version + " 201" || (|version| + 5 <= |response| && response[..|version| + 5] == version + " 201 "))
  {
    var v := ReadUntilSpace(response);
    var c := ReadUntilSpace(v.rest);
    StatusLineRejoined(response, v.token, v.rest, c.rest);
  }

  /** A line cut at its first two spaces, with `201` between them, reads
      `<version> 201` to the end or up to a space. */
  lemma StatusLineRejoined(response: string, version: string, rest: string, after: string)
    requires response == version + " " + rest
    requires rest == "201" || rest == "201" + " " + after
    ensures response == version + " 201" || (|version| + 5 <= |response| && response[..|version| + 5] == version + " 201 ")
  {
    if rest != "201" {
      var head := version + " 201 ";
      assert response == head + after;
      assert response[..|head|] == head;
    }
  }

  /** Reading up to a space finds exactly the space-free token before it. */
  lemma {:induction false} SplitAtFirstSpace(token: string, rest: string)
    requires ' ' !in token
    ensures ReadUntilSpace(token + " " + rest) == Split(token, rest)
    ensures ReadUntilSpace(token) == Split(token, [])
  {
    if |token| > 0 {
      SplitAtFirstSpace(token[1..], rest);
      assert token[0] != ' ' by { assert token[0] in token; }
      assert [token[0]] + token[1..] == token;
      assert (token + " " + rest)[0] == token[0];
      assert (token + " " + rest)[1..] == token[1..] + " " + rest;
    }
  }
}

=== FILE: metrics.dfy ===
/** The node's counters: cumulative since boot, bumped by capture and upload,
    and published with a backlog snapshot by the metrics tick. */
module Metrics {

  datatype Metrics = Metrics(
    recordsReadSuccess: nat,
    recordsReadError: nat,
    uploadCountSuccess: nat,
    uploadCountError: nat,
    uploadBytesSuccess: nat,
    uploadBytesError: nat,
    uploadTimeSuccess: nat,
    uploadTimeError: nat,
    uploadRecordsSuccess: nat,
    uploadRecordCrcError: nat,
    recordsPendingUpload: nat)

  /** Every counter starts at zero on boot. */
  const Boot := Metrics(0, 0, 0, 0, 0, 0, 0, 0, 0, 0, 0)

  /** No cumulative counter of `a` exceeds its value in `b` (the backlog snapshot is not cumulative). */
  predicate Le(a: Metrics, b: Metrics) {
    && a.recordsReadSuccess <= b.recordsReadSuccess
    && a.recordsReadError <= b.recordsReadError
    && a.uploadCountSuccess <= b.uploadCountSuccess
    && a.uploadCountError <= b.uploadCountError
    && a.uploadBytesSuccess <= b.uploadBytesSuccess
    && a.uploadBytesError <= b.uploadBytesError
    && a.uploadTimeSuccess <= b.uploadTimeSuccess
    && a.uploadTimeError <= b.uploadTimeError
    && a.uploadRecordsSuccess <= b.uploadRecordsSuccess
    && a.uploadRecordCrcError <= b.uploadRecordCrcError
  }

  /** A read tick's outcome: one success or one error. */
  function RecordRead(m: Metrics, valid: bool): (m': Metrics)
    ensures Le(m, m')
  {
    if valid then m.(recordsReadSuccess := m.recordsReadSuccess + 1)
    else m.(recordsReadError := m.recordsReadError + 1)
  }

  /** A failed connection attempt, `elapsed` ms spent on it. */
  function ConnectFailure(m: Metrics, elapsed: nat): (m': Metrics)
    ensures Le(m, m')
  {
    m.(uploadCountError := m.uploadCountError + 1,
       uploadTimeError := m.uploadTimeError + elapsed)
  }

  /** A POST of `bytes` body bytes that timed out or was not answered with 201. */
  function PostFailed(m: Metrics, bytes: nat, elapsed: nat): (m': Metrics)
    ensures Le(m, m')
  {
    m.(uploadBytesError := m.uploadBytesError + bytes,
       uploadCountError := m.uploadCountError + 1,
       uploadTimeError := m.uploadTimeError + elapsed)
  }

  /** A POST answered with 201, carrying `ok` valid records; `err` corrupt ones were skipped. */
  function PostSucceeded(m: Metrics, bytes: nat, elapsed: nat, ok: nat, err: nat): (m': Metrics)
    ensures Le(m, m')
  {
    m.(uploadBytesSuccess := m.uploadBytesSuccess + bytes,
       uploadCountSuccess := m.uploadCountSuccess + 1,
       uploadTimeSuccess := m.uploadTimeSuccess + elapsed,
       uploadRecordsSuccess := m.uploadRecordsSuccess + ok,
       uploadRecordCrcError := m.uploadRecordCrcError + err)
  }

  /** `err` checksum-corrupt records dropped from the queue head. */
  function CorruptDiscarded(m: Metrics, err: nat): (m': Metrics)
    ensures Le(m, m')
  {
    m.(uploadRecordCrcError := m.uploadRecordCrcError + err)
  }

  /** Names under which the metrics tick publishes, in publishing order. */
  const PUBLISHED_NAMES: seq<string> := [
    "totalUploadRecordCRCError", "totalUploadCountSuccess", "totalUploadTimeSuccess",
    "totalUploadRecordsSuccess", "totalUploadCountError", "totalUploadTimeError",
    "totalRecordsReadSuccess", "totalRecordsReadError", "totalRecordsPendingUpload",
    "totalUploadBytesSuccess", "totalUploadBytesError"]

  /** The counter a published name stands for. */
  function Counter(m: Metrics, name: string): nat {
    match name
    case "totalUploadRecordCRCError" => m.uploadRecordCrcError
    case "totalUploadCountSuccess" => m.uploadCountSuccess
    case "totalUploadTimeSuccess" => m.uploadTimeSuccess
    case "totalUploadRecordsSuccess" => m.uploadRecordsSuccess
    case "totalUploadCountError" => m.uploadCountError
    case "totalUploadTimeError" => m.uploadTimeError
    case "totalRecordsReadSuccess" => m.recordsReadSuccess
    case "totalRecordsReadError" => m.recordsReadError
    case "totalRecordsPendingUpload" => m.recordsPendingUpload
    case "totalUploadBytesSuccess" => m.uploadBytesSuccess
    case "totalUploadBytesError" => m.uploadBytesError
    case _ => 0
  }

  datatype Sample = Sample(name: string, value: nat)
  datatype Snapshot = Snapshot(metrics: Metrics, published: seq<Sample>)

  /** `_reportMetrics`: take the backlog snapshot, then publish every counter
      under its name. Nothing cumulative changes. */
  function Report(m: Metrics, backlog: nat): (r: Snapshot)
    ensures Le(m, r.metrics) && Le(r.metrics, m)
    ensures r.metrics.recordsPendingUpload == backlog
    ensures |r.published| == |PUBLISHED_NAMES|
    ensures forall k :: 0 <= k < |r.published| ==>
              r.published[k].name == PUBLISHED_NAMES[k] && r.published[k].value == Counter(r.metrics, PUBLISHED_NAMES[k])
  {
    var m' := m.(recordsPendingUpload := backlog);
    Snapshot(m', seq(|PUBLISHED_NAMES|, k requires 0 <= k < |PUBLISHED_NAMES| => Sample(PUBLISHED_NAMES[k], Counter(m', PUBLISHED_NAMES[k]))))
  }
}

=== FILE: nmea.dfy ===
/** The NMEA 0183 `*hh` checksum test of the GPS node: hex digit decoding and
    the validator applied to records at capture time and again before upload. */
module Nmea {

  /** Hexadecimal digit tables, indexed by digit value. */
  const HEX_UPPER: string := "0123456789ABCDEF"
  const HEX_LOWER: string := "0123456789abcdef"

  /** The byte a character of a record stands for (the validator's `(byte)` cast). */
  function ByteOf(c: char): bv8 {
    ((c as int) % 256) as bv8
  }

  /** `_fromHex`: the value of one hex digit, either case. A character that is
      not a hex digit is not rejected: it yields its distance from `'0'`. */
  function FromHex(a: char): (v: int)
    ensures forall k :: 0 <= k < 16 && HEX_UPPER[k] == a ==> v == k
    ensures forall k :: 0 <= k < 16 && HEX_LOWER[k] == a ==> v == k
    ensures a !in HEX_UPPER && a !in HEX_LOWER ==> v == a as int - '0' as int
  {
    if 'A' <= a <= 'F' then a as int - 'A' as int + 10
    else if 'a' <= a <= 'f' then a as int - 'a' as int + 10
    else a as int - '0' as int
  }

  /** XOR of the bytes of `s`, folded from the left as the validator's loop does. */
  function XorAll(s: string): bv8 {
    if |s| == 0 then 0 else XorAll(s[..|s| - 1]) ^ ByteOf(s[|s| - 1])
  }

  /** The characters the validator XORs: indices 1 up to, not including,
      `|s| - 4`. With the layout `$body*hh\r` this is exactly `body`. */
  function Payload(s: string): string {
    if |s| <= 5 then [] else s[1..|s| - 4]
  }

  /** The checksum the record declares: the two characters before the last
      one, read as hex digits and truncated to a byte. */
  function DeclaredChecksum(s: string): int
    requires 3 <= |s|
  {
    (16 * FromHex(s[|s| - 3]) + FromHex(s[|s| - 2])) % 256
  }

  /** `_validateNmeaChecksum`. It does not look for `*` or `$`: it trusts the
      positions. Shorter strings would be read out of bounds, hence the requires. */
  predicate ChecksumValid(s: string)
    requires 3 <= |s|
  {
    XorAll(Payload(s)) as int == DeclaredChecksum(s)
  }

  /** The validator's loop, index by index as the source runs it. */
  method ValidateNmeaChecksum(s: string) returns (valid: bool)
    requires 3 <= |s|
    ensures valid <==> XorAll(Payload(s)) as int == DeclaredChecksum(s)
  {
    var len := |s|;
    var realCrc: bv8 := 0;
    var i := 1;
    while i < len - 4
      invariant 1 <= i <= len
      invariant len > 5 ==> i <= len - 4
      invariant len <= 5 ==> i == 1
      invariant realCrc == XorAll(s[1..i])
    {
      assert s[1..i + 1][..i - 1] == s[1..i];
      realCrc := realCrc ^ ByteOf(s[i]);
      i := i + 1;
    }
    assert s[1..i] == Payload(s);
    var correctCrc := (16 * FromHex(s[len - 3]) + FromHex(s[len - 2])) % 256;
    valid := realCrc as int == correctCrc;
  }

  /** The two hex digits a sender writes after `*` for checksum `b`. */
  function HexPair(b: nat, upper: bool): string
    requires b < 256
  {
    var digits := if upper then HEX_UPPER else HEX_LOWER;
    [digits[b / 16], digits[b % 16]]
  }

  /** Reading back a rendered checksum gives the checksum, in either case. */
  lemma HexPairValue(b: nat, upper: bool)
    requires b < 256
    ensures (16 * FromHex(HexPair(b, upper)[0]) + FromHex(HexPair(b, upper)[1])) % 256 == b
  {
    var digits := if upper then HEX_UPPER else HEX_LOWER;
    assert FromHex(digits[b / 16]) == b / 16;
    assert FromHex(digits[b % 16]) == b % 16;
  }

  /** In the layout `$body*hh\r` the validator XORs exactly `body` and compares
      with the value of the digits `hh`. */
  lemma EnvelopeLayout(body: string, hh: string)
    requires |hh| == 2
    ensures var s := "$" + body + "*" + hh + "\r";
            && 3 <= |s|
            && (ChecksumValid(s) <==> XorAll(body) as int == (16 * FromHex(hh[0]) + FromHex(hh[1])) % 256)
  {
    var s := "$" + body + "*" + hh + "\r";
    if |s| > 5 {
      assert s[1..|s| - 4] == body;
    }
    assert Payload(s) == body;
    assert s[|s| - 3] == hh[0] && s[|s| - 2] == hh[1];
  }

  /** A sentence laid out as `$body*hh\r` passes the validator exactly when
      `hh` renders the XOR of the bytes of `body`, in upper or lower case. */
  lemma EnvelopeChecksum(body: string, b: nat, upper: bool)
    requires b < 256
    ensures var s := "$" + body + "*" + HexPair(b, upper) + "\r";
            3 <= |s| && (ChecksumValid(s) <==> XorAll(body) as int == b)
  {
    EnvelopeLayout(body, HexPair(b, upper));
    HexPairValue(b, upper);
  }
}

=== FILE: node.dfy ===
/** The GPS node's `loop`: when connected, an upload round once the backlog
    exceeds the threshold and the metrics report when its timer is due; then,
    when the read timer is due, a read tick. Timers, connectivity, the serial
    port and the network are the environment of each step. Like the upload
    round, a pass is stated for any record validator `valid`; the firmware
    uses the NMEA checksum (`RecordQueue.Valid`) both at capture and upload. */
module Node {
  import opened Wrappers
  import opened RecordQueue
  import opened Metrics
  import opened Acquisition
  import opened Upload

  /** Build-time settings: the record buffer size, the backlog an upload
      waits for, the upload path, and the removal count a 201 applies. */
  datatype Config = Config(recordLength: nat, minSamples: nat, uploadPath: string, removal: Removal)

  /** The node between two passes of `loop`: whether setup ran, the queue, the
      counters and the next sentence kind (true for GGA). */
  datatype Node = Node(initialized: bool, queue: seq<Record>, metrics: Metrics, readGga: bool)

  /** What one pass of `loop` sees: connectivity, whether the metrics and read
      timers are due, the network script for an upload round and the serial
      port script for a read tick. */
  datatype Env = Env(connected: bool, metricsDue: bool, readDue: bool, network: Network, lines: seq<string>)

  /** One pass: the node after it and what each stage did, if it ran. */
  datatype Pass = Pass(node: Node, round: Option<Round>, report: Option<Snapshot>, tick: Option<Tick>)

  /** Appending a valid record keeps the queue valid. */
  lemma PushKeepsValid(valid: Record -> bool, q: seq<Record>, r: Record)
    ensures AllValid(valid, q) && valid(r) ==> AllValid(valid, q + [r])
  {
    assert forall k :: 0 <= k < |q| ==> (q + [r])[k] == q[k];
  }

  /** A round keeps a valid queue valid, and drops nothing from it. */
  lemma RoundKeepsValid(valid: Record -> bool, q: seq<Record>, r: Round)
    requires HeadOnly(q, r) && AllCorrupt(valid, r.discarded)
    ensures AllValid(valid, q) ==> AllValid(valid, r.queue) && r.discarded == []
  {
    if AllValid(valid, q) {
      ValidHeadDropsNothing(valid, q, r);
      assert forall k :: 0 <= k < |r.queue| ==> r.queue[k] == q[|r.confirmed + r.discarded| + k];
    }
  }

  /** The upload stage: a round when connected and the backlog exceeds the threshold. */
  function UploadStage(valid: Record -> bool, cfg: Config, n: Node, env: Env): (r: (Node, Option<Round>))
    ensures r.1.Some? <==> env.connected && |n.queue| > cfg.minSamples
    ensures r.1.None? ==> r.0 == n
    ensures r.1.Some? ==> HeadOnly(n.queue, r.1.value) && r.0.queue == r.1.value.queue
    ensures r.0.initialized == n.initialized && r.0.readGga == n.readGga
    ensures Le(n.metrics, r.0.metrics)
    ensures r.0.metrics.recordsReadSuccess == n.metrics.recordsReadSuccess
    ensures r.0.metrics.recordsReadError == n.metrics.recordsReadError
    ensures AllValid(valid, n.queue) ==> AllValid(valid, r.0.queue)
    ensures AllValid(valid, n.queue) && r.1.Some? ==> r.1.value.discarded == []
  {
    if env.connected && |n.queue| > cfg.minSamples then
      var round := UploadRound(valid, n.queue, n.metrics, cfg.uploadPath, env.network, cfg.removal);
      RoundKeepsValid(valid, n.queue, round);
      (n.(queue := round.queue, metrics := round.metrics), Some(round))
    else (n, None)
  }

  /** The report stage: when connected and the metrics timer is due. */
  function ReportStage(n: Node, env: Env): (r: (Node, Option<Snapshot>))
    ensures r.1.Some? <==> env.connected && env.metricsDue
    ensures r.0.queue == n.queue && r.0.initialized == n.initialized && r.0.readGga == n.readGga
    ensures Le(n.metrics, r.0.metrics) && Le(r.0.metrics, n.metrics)
    ensures r.1.Some? ==> r.0.metrics.recordsPendingUpload == |n.queue| && r.1.value.metrics == r.0.metrics
    ensures r.1.None? ==> r.0 == n
  {
    if env.connected && env.metricsDue then
      var snap := Report(n.metrics, |n.queue|);
      (n.(metrics := snap.metrics), Some(snap))
    else (n, None)
  }

  /** The read stage: a read tick when the read timer is due. */
  function ReadStage(valid: Record -> bool, cfg: Config, n: Node, env: Env): (r: (Node, Option<Tick>))
    requires 6 < cfg.recordLength
    ensures r.1.Some? <==> env.readDue
    ensures r.1.None? ==> r.0 == n
    ensures r.1.Some? ==> r.0.readGga == !n.readGga
    ensures r.0.initialized == n.initialized
    ensures Le(n.metrics, r.0.metrics)
    ensures r.1.Some? ==>
              var read := ReadRecord(valid, r.1.value.kind, env.lines, cfg.recordLength);
              r.0.queue == n.queue + (if read.valid then [read.record] else [])
    ensures AllValid(valid, n.queue) ==> AllValid(valid, r.0.queue)
    ensures r.0.metrics.recordsReadSuccess + r.0.metrics.recordsReadError
              == n.metrics.recordsReadSuccess + n.metrics.recordsReadError + (if r.1.Some? then 1 else 0)
  {
    if env.readDue then
      var t := ReadTick(valid, n.queue, n.metrics, n.readGga, env.lines, cfg.recordLength, env.connected);
      var read := ReadRecord(valid, t.kind, env.lines, cfg.recordLength);
      PushKeepsValid(valid, n.queue, read.record);
      (Node(n.initialized, t.queue, t.metrics, t.readGga), Some(t))
    else (n, None)
  }

  /** One pass of `loop`. Nothing happens before setup. Otherwise the stages
      run in order: the queue only loses records at its head (to the upload
      round) and only gains a valid record at its tail (from the read tick),
      and no cumulative counter goes down. */
  function Step(valid: Record -> bool, cfg: Config, n: Node, env: Env): (r: Pass)
    requires 6 < cfg.recordLength
    ensures !n.initialized ==> r == Pass(n, None, None, None)
    ensures r.node.initialized == n.initialized
    ensures r.round.Some? <==> n.initialized && env.connected && |n.queue| > cfg.minSamples
    ensures r.report.Some? <==> n.initialized && env.connected && env.metricsDue
    ensures r.tick.Some? <==> n.initialized && env.readDue
    ensures r.round.Some? ==> HeadOnly(n.queue, r.round.value)
    ensures var kept := if r.round.Some? then r.round.value.queue else n.queue;
            && (r.tick.None? ==> r.node.queue == kept)
            && (r.tick.Some? ==>
                  var read := ReadRecord(valid, r.tick.value.kind, env.lines, cfg.recordLength);
                  r.node.queue == kept + (if read.valid then [read.record] else []))
    ensures Le(n.metrics, r.node.metrics)
    ensures AllValid(valid, n.queue) ==> AllValid(valid, r.node.queue)
    ensures AllValid(valid, n.queue) && r.round.Some? ==> r.round.value.discarded == []
  {
    if !n.initialized then Pass(n, None, None, None)
    else
      var (n1, round) := UploadStage(valid, cfg, n, env);
      var (n2, report) := ReportStage(n1, env);
      var (n3, tick) := ReadStage(valid, cfg, n2, env);
      Pass(n3, round, report, tick)
  }

  /** Records dropped as corrupt from the head of a valid queue: there are none. */
  lemma ValidHeadDropsNothing(valid: Record -> bool, q: seq<Record>, r: Round)
    requires AllValid(valid, q) && HeadOnly(q, r)
    requires AllCorrupt(valid, r.discarded)
    ensures r.discarded == []
  {
    DroppedFromHead(q, r);
  }

  /** The first record a round dropped sits in the queue right after what it confirmed. */
  lemma DroppedFromHead(q: seq<Record>, r: Round)
    requires HeadOnly(q, r)
    ensures 0 < |r.discarded| ==> r.discarded[0] == q[|r.confirmed|]
  {
  }
}

=== FILE: record_queue.dfy ===
/** The record queue the node captures into and uploads from. Its persistent
    implementation is outside this model; only the contract the node relies on
    is kept: push at the tail, peek by 0-based offset, bulk removal at the head. */
module RecordQueue {
  import opened Wrappers
  import Nmea

  /** A stored record as `strlen` sees it: the characters before its terminator,
      so none of them is NUL.
      The checksum validator reads the third character from the end, so a record
      has at least three. */
  type Record = s: string | 3 <= |s| && '\0' !in s witness "$*\r"

  /** Every record of a run passes the validator. */
  predicate AllValid(valid: Record -> bool, rs: seq<Record>) {
    forall k :: 0 <= k < |rs| ==> valid(rs[k])
  }

  /** Every record of a run fails the validator. */
  predicate AllCorrupt(valid: Record -> bool, rs: seq<Record>) {
    forall k :: 0 <= k < |rs| ==> !valid(rs[k])
  }

  /** A record passes the checksum validator. */
  predicate Valid(r: Record) {
    Nmea.ChecksumValid(r)
  }

  /** `push`: one record appended at the tail. */
  function Push(q: seq<Record>, r: Record): (q': seq<Record>)
    ensures |q'| == |q| + 1
    ensures q'[..|q|] == q && q'[|q|] == r
  {
    q + [r]
  }

  /** `peek(out, i)`: succeeds exactly when `i` is below the current count. */
  function Peek(q: seq<Record>, i: nat): (r: Option<Record>)
    ensures r.Some? <==> i < |q|
    ensures r.Some? ==> r.value == q[i]
  {
    if i < |q| then Some(q[i]) else None
  }

  /** `removeElements(n)`: the first `n` records go; a count beyond the backlog empties it. */
  function RemoveElements(q: seq<Record>, n: nat): (q': seq<Record>)
    ensures |q'| == |q| - Min(n, |q|)
    ensures q == q[..Min(n, |q|)] + q'
  {
    q[Min(n, |q|)..]
  }
}

=== FILE: upload.dfy ===
/** One upload round, `_sendNextGpsData`: connect once, then up to ten times
    build a chunk from the queue head, POST it and read the status; remove the
    chunk's records only on 201, and drop an all-corrupt remainder.

    Wall-clock time, the connection and the server are a script: whether the
    connection opens, and per loop iteration either that the 10 s budget ran
    out or what the POST got back. The round is stated for any record
    validator `valid`; the node passes the NMEA checksum. */
module Upload {
  import opened Wrappers
  import opened RecordQueue
  import opened Metrics
  import opened UploadChunk
  import opened Http

  /** Iterations of the send loop per round. */
  const MAX_POSTS: nat := 10

  /** What happens in one iteration of the send loop: the time budget was already
      spent, no response came within the wait, or these bytes came back after
      `elapsed` ms. */
  datatype Exchange = OutOfTime | NoResponse(elapsed: nat) | Response(text: string, elapsed: nat)

  /** What the loop makes of an exchange: the budget was spent, no usable response
      came (none, or fewer than 15 bytes), or a response read as this status. */
  datatype Reply = Expired | Silent(elapsed: nat) | Answer(status: Status, elapsed: nat)

  /** The scripted network for one round. A script that runs out means the time
      budget ran out. */
  datatype Network = Network(connects: bool, connectElapsed: nat, exchanges: seq<Exchange>)

  /** How many records a 201 removes: `sdRecordsCount` as the source does, or
      only the records the chunk examined. */
  datatype Removal = AsWritten | Corrected

  datatype RoundEnd = NothingQueued | ConnectFailed | ResponseTimeout | Drained | Stopped

  /** The ends the send loop itself reaches: a response timeout, an emptied
      queue, or its own test. */
  predicate LoopEnd(e: RoundEnd) {
    e.ResponseTimeout? || e.Drained? || e.Stopped?
  }

  /** The outcome of a round: the queue and counters after it, the requests
      sent, how many were answered 201, the records removed after those 201s, the
      bodies those 201s confirmed, the records those bodies were built from (the
      ones `sdRecordsOK` and `sdRecordsError` counted), the corrupt records
      dropped, how it ended, and the loop index `i` it ended at. */
  datatype Round = Round(queue: seq<Record>, metrics: Metrics, posts: seq<Request>, acks: nat,
                         confirmed: seq<Record>, delivered: string, counted: seq<Record>,
                         discarded: seq<Record>, end: RoundEnd, at: nat)

  /** Records removed by a 201 for chunk `c`. */
  function AckRemovalCount(c: Chunk, removal: Removal): nat {
    match removal
    case AsWritten => c.peeked
    case Corrected => c.Examined()
  }

  /** The response wait loop ends with data only once 15 bytes are available. */
  predicate Answered(e: Exchange) {
    e.Response? && |e.text| >= MIN_RESPONSE_BYTES
  }

  /** The wait loop and the status-line reading applied to one exchange. */
  function Read(e: Exchange): (r: Reply)
    ensures r.Expired? <==> e.OutOfTime?
    ensures r.Answer? <==> Answered(e)
    ensures r.Answer? ==> r.status == Classify(e.text)
    ensures !r.Expired? ==> r.elapsed == e.elapsed
  {
    match e
    case OutOfTime => Expired
    case NoResponse(elapsed) => Silent(elapsed)
    case Response(text, elapsed) => if |text| >= MIN_RESPONSE_BYTES then Answer(Classify(text), elapsed) else Silent(elapsed)
  }

  /** Total body bytes of a run of requests. */
  function BodyBytes(posts: seq<Request>): nat {
    if |posts| == 0 then 0 else |posts[0].body| + BodyBytes(posts[1..])
  }

  /** Removal only at the head: what left the queue is what 201s confirmed,
      then what was dropped as corrupt, in queue order. */
  predicate HeadOnly(q: seq<Record>, r: Round) {
    q == r.confirmed + r.discarded + r.queue
  }

  /** Every request carries the configured path, a non-empty body and a
      Content-Length that reads back as the body's length. */
  predicate WellFramed(path: string, posts: seq<Request>) {
    forall k :: 0 <= k < |posts| ==>
      && posts[k].path == path
      && 0 < |posts[k].body|
      && ParseDecimal(posts[k].contentLength) == Some(|posts[k].body|)
  }

  /** Exact counter accounting for a round that made `connectErrors` failed
      connection attempts: counters only grow, read counters and the backlog
      snapshot do not move, each POST is one success or one error, and every body
      byte sent is attributed once. */
  predicate Counted(m: Metrics, r: Round, connectErrors: nat) {
    && Le(m, r.metrics)
    && r.acks <= |r.posts|
    && r.metrics.recordsReadSuccess == m.recordsReadSuccess
    && r.metrics.recordsReadError == m.recordsReadError
    && r.metrics.recordsPendingUpload == m.recordsPendingUpload
    && r.metrics.uploadCountSuccess == m.uploadCountSuccess + r.acks
    && r.metrics.uploadCountError == m.uploadCountError + (|r.posts| - r.acks) + connectErrors
    && r.metrics.uploadBytesSuccess == m.uploadBytesSuccess + |r.delivered|
    && r.metrics.uploadBytesSuccess + r.metrics.uploadBytesError
         == m.uploadBytesSuccess + m.uploadBytesError + BodyBytes(r.posts)
  }

  /** The record counters, under either removal count: the 201-answered bodies
      are built from the counted records, whose valid ones are counted as
      uploaded and whose corrupt ones, with every dropped record, as CRC errors;
      and each 201 removes the records it counted plus at most one more. */
  predicate Attributed(valid: Record -> bool, m: Metrics, r: Round) {
    && Body(valid, r.counted) == r.delivered
    && r.metrics.uploadRecordsSuccess == m.uploadRecordsSuccess + ValidCount(valid, r.counted)
    && r.metrics.uploadRecordCrcError
         == m.uploadRecordCrcError + InvalidCount(valid, r.counted) + |r.discarded|
    && |r.counted| <= |r.confirmed| <= |r.counted| + r.acks
    && multiset(r.counted) <= multiset(r.confirmed)
  }

  /** Nothing valid is lost: the records removed after 201s carry exactly the
      confirmed bodies, success and CRC counters account for each removed record,
      and every dropped record is corrupt. */
  predicate NoLoss(valid: Record -> bool, m: Metrics, r: Round) {
    && Body(valid, r.confirmed) == r.delivered
    && r.metrics.uploadRecordsSuccess == m.uploadRecordsSuccess + ValidCount(valid, r.confirmed)
    && r.metrics.uploadRecordCrcError
         == m.uploadRecordCrcError + InvalidCount(valid, r.confirmed) + |r.discarded|
  }

  /** The loop stops before building a chunk: ten iterations done, or the
      time budget spent. */
  predicate LoopEnds(replies: seq<Reply>, i: nat) {
    i == MAX_POSTS || |replies| <= i || replies[i].Expired?
  }

  /** One pass of the send loop: what it did, as a round of its own whose queue
      and counters are those the next pass starts from, and whether the loop
      goes on. */
  datatype Iteration = Iteration(part: Round, more: bool)

  /** The empty-body exit: every remaining record is corrupt and is dropped
      and counted, if there is any. */
  function DropCorrupt(valid: Record -> bool, q: seq<Record>, m: Metrics, at: nat): (r: Round)
    requires AllCorrupt(valid, q)
    ensures HeadOnly(q, r) && r.queue == [] && r.posts == [] && r.end == Drained
    ensures r.confirmed == [] && r.discarded == q && r.acks == 0
    ensures Counted(m, r, 0)
    ensures AllCorrupt(valid, r.discarded)
    ensures NoLoss(valid, m, r) && Attributed(valid, m, r)
  {
    AllCorruptCounts(valid, q);
    if |q| > 0 then
      assert RemoveElements(q, |q|) == [];
      Round(RemoveElements(q, |q|), CorruptDiscarded(m, |q|), [], 0, [], "", [], q, Drained, at)
    else Round(q, m, [], 0, [], "", [], q, Drained, at)
  }

  /** A POST that is not answered with 201 (or not answered at all): its bytes,
      time and one error are counted, and the queue stays. */
  function Unacked(q: seq<Record>, m: Metrics, post: Request, elapsed: nat, end: RoundEnd, at: nat): (r: Round)
    ensures HeadOnly(q, r) && r.queue == q && r.posts == [post] && r.acks == 0 && r.end == end
    ensures Counted(m, r, 0)
    ensures r.discarded == []
    ensures forall valid: Record -> bool :: NoLoss(valid, m, r) && Attributed(valid, m, r)
  {
    assert BodyBytes([post]) == |post.body| by { assert [post][1..] == []; }
    Round(q, PostFailed(m, |post.body|, elapsed), [post], 0, [], "", [], [], end, at)
  }

  /** A POST answered with 201 whose body was built from the first `e` records,
      `ok` of them valid and `err` corrupt: the first `n` records leave the
      queue. The counters attribute the `e` records whenever the body and counts
      are theirs; when also `n` is `e`, nothing is lost. */
  function Acked(valid: Record -> bool, q: seq<Record>, m: Metrics, post: Request, elapsed: nat,
                 ok: nat, err: nat, e: nat, n: nat, at: nat): (r: Round)
    requires e <= n <= |q|
    ensures HeadOnly(q, r) && r.queue == q[n..] && r.posts == [post] && r.acks == 1
    ensures r.counted == q[..e]
    ensures Counted(m, r, 0)
    ensures r.discarded == []
    ensures (&& post.body == Body(valid, q[..e])
             && ok == ValidCount(valid, q[..e])
             && err == InvalidCount(valid, q[..e])
             && n <= e + 1) ==> Attributed(valid, m, r)
    ensures (&& post.body == Body(valid, q[..n])
             && ok == ValidCount(valid, q[..n])
             && err == InvalidCount(valid, q[..n])) ==> NoLoss(valid, m, r)
  {
    assert BodyBytes([post]) == |post.body| by { assert [post][1..] == []; }
    assert q == q[..n] + q[n..];
    assert q[..n] == q[..e] + q[e..n];
    Round(q[n..], PostSucceeded(m, |post.body|, elapsed, ok, err), [post], 1, q[..n], post.body, q[..e], [], Stopped, at)
  }

  /** One pass of the send loop body after the loop test: build a chunk; drop
      an all-corrupt remainder and leave when the body is empty; otherwise POST
      it, leave on a response timeout, and remove records only on 201. What a
      pass keeps is stated by the lemmas below. */
  function Iterate(valid: Record -> bool, q: seq<Record>, m: Metrics, path: string,
                   i: nat, reply: Reply, removal: Removal): (it: Iteration)
    requires !reply.Expired?
  {
    var c := BuildChunk(valid, q);
    if |c.body| == 0 then
      EmptyBodyAllCorrupt(valid, q[..c.Examined()]);
      assert q[..c.Examined()] == q;
      Iteration(DropCorrupt(valid, q, m, i), false)
    else
      var post := Post(path, c.body);
      match reply
      case Silent(elapsed) => Iteration(Unacked(q, m, post, elapsed, ResponseTimeout, i), false)
      case Answer(status, elapsed) =>
        if status == Created then
          Iteration(Acked(valid, q, m, post, elapsed, c.ok, c.err, c.Examined(), Min(AckRemovalCount(c, removal), |q|), i), true)
        else
          Iteration(Unacked(q, m, post, elapsed, Stopped, i), true)
  }

  /** A pass removes only at the head, goes on only after a POST that dropped
      nothing, and every record it drops is corrupt. */
  lemma IterateKeepsHead(valid: Record -> bool, q: seq<Record>, m: Metrics, path: string,
                         i: nat, reply: Reply, removal: Removal)
    requires !reply.Expired?
    ensures var it := Iterate(valid, q, m, path, i, reply, removal);
            && HeadOnly(q, it.part)
            && (it.more ==> it.part.discarded == [])
            && AllCorrupt(valid, it.part.discarded)
  {
  }

  /** A pass leaves the loop exactly when its chunk is empty (the `break`,
      ending `Drained` with nothing sent) or its request got no usable response
      (the `return` of the wait loop, ending `ResponseTimeout`); otherwise it
      sent one request, got an answer and goes on. */
  lemma IterateExits(valid: Record -> bool, q: seq<Record>, m: Metrics, path: string,
                     i: nat, reply: Reply, removal: Removal)
    requires !reply.Expired?
    ensures var it := Iterate(valid, q, m, path, i, reply, removal);
            var empty := |BuildChunk(valid, q).body| == 0;
            && (it.more <==> !empty && reply.Answer?)
            && (empty ==> !it.more && it.part.end == Drained && it.part.posts == [])
            && (!empty && reply.Silent? ==> !it.more && it.part.end == ResponseTimeout && |it.part.posts| == 1)
  {
  }

  /** What the loop needs of a pass: at most one request, exactly one when it
      goes on and then only after an answer; when it leaves, it does so on an
      emptied queue or on a silent reply, at its own index. */
  lemma IterateEnds(valid: Record -> bool, q: seq<Record>, m: Metrics, path: string,
                    i: nat, reply: Reply, removal: Removal)
    requires !reply.Expired?
    ensures var it := Iterate(valid, q, m, path, i, reply, removal);
            && |it.part.posts| <= 1
            && (it.more ==> |it.part.posts| == 1 && reply.Answer?)
            && (!it.more ==> it.part.at == i && (it.part.end.ResponseTimeout? || it.part.end.Drained?))
            && (!it.more && it.part.end == ResponseTimeout ==> reply.Silent?)
            && (!it.more && it.part.end == Drained ==> it.part.queue == [])
  {
  }

  /** A pass removes records as sent only after a 201: it counts one 201
      exactly when it goes on after a 201 reply, and any other reply (a timeout
      or another status) removes nothing and, unless the chunk was empty,
      leaves the queue as it was. */
  lemma IterateConfirmsOnAck(valid: Record -> bool, q: seq<Record>, m: Metrics, path: string,
                             i: nat, reply: Reply, removal: Removal)
    requires !reply.Expired?
    ensures var it := Iterate(valid, q, m, path, i, reply, removal);
            var created := reply.Answer? && reply.status == Created;
            && it.part.acks == (if it.more && created then 1 else 0)
            && (it.part.acks == 0 ==> it.part.confirmed == [] && it.part.delivered == [])
            && (!created ==> && it.part.acks == 0 && it.part.confirmed == []
                             && (it.part.end == Drained || it.part.queue == q))
  {
  }

  /** A pass that POSTs a chunk and gets 201 removes the first records of the
      queue, as many as the removal count says (at most the whole queue),
      delivers the chunk's body and counts the records the chunk examined. */
  lemma IterateRemovesOnCreated(valid: Record -> bool, q: seq<Record>, m: Metrics, path: string,
                                i: nat, reply: Reply, removal: Removal)
    requires 0 < |BuildChunk(valid, q).body|
    requires reply.Answer? && reply.status == Created
    ensures var it := Iterate(valid, q, m, path, i, reply, removal);
            var c := BuildChunk(valid, q);
            var n := Min(AckRemovalCount(c, removal), |q|);
            && it.more && it.part.acks == 1
            && it.part.confirmed == q[..n] && it.part.queue == q[n..]
            && it.part.delivered == c.body && it.part.counted == q[..c.Examined()]
  {
  }

  /** The request a pass sends is well framed. */
  lemma IterateFramed(valid: Record -> bool, q: seq<Record>, m: Metrics, path: string,
                      i: nat, reply: Reply, removal: Removal)
    requires !reply.Expired?
    ensures WellFramed(path, Iterate(valid, q, m, path, i, reply, removal).part.posts)
  {
  }

  /** A pass accounts for its request exactly. */
  lemma IterateCounted(valid: Record -> bool, q: seq<Record>, m: Metrics, path: string,
                       i: nat, reply: Reply, removal: Removal)
    requires !reply.Expired?
    ensures Counted(m, Iterate(valid, q, m, path, i, reply, removal).part, 0)
    ensures var it := Iterate(valid, q, m, path, i, reply, removal);
            var created := reply.Answer? && reply.status == Created;
            var success := it.part.metrics.uploadTimeSuccess;
            var error := it.part.metrics.uploadTimeError;
            && (it.part.posts != [] && created ==>
                  success == m.uploadTimeSuccess + reply.elapsed && error == m.uploadTimeError)
            && (it.part.posts != [] && !created ==>
                  success == m.uploadTimeSuccess && error == m.uploadTimeError + reply.elapsed)
            && (it.part.posts == [] ==> success == m.uploadTimeSuccess && error == m.uploadTimeError)
  {
  }

  /** Under either removal count, a pass attributes its records to the counters. */
  lemma IterateAttributed(valid: Record -> bool, q: seq<Record>, m: Metrics, path: string,
                          i: nat, reply: Reply, removal: Removal)
    requires !reply.Expired?
    ensures var it := Iterate(valid, q, m, path, i, reply, removal);
            Attributed(valid, m, it.part) && it.part.counted <= it.part.confirmed
  {
  }

  /** With the corrected removal count, a pass loses nothing. */
  lemma IterateNoLoss(valid: Record -> bool, q: seq<Record>, m: Metrics, path: string, i: nat, reply: Reply)
    requires !reply.Expired?
    ensures NoLoss(valid, m, Iterate(valid, q, m, path, i, reply, Corrected).part)
  {
  }

  /** A pass followed by the rest of the loop, run from where the pass left the
      queue and the counters. */
  function Then(a: Round, b: Round): Round {
    Round(b.queue, b.metrics, a.posts + b.posts, a.acks + b.acks, a.confirmed + b.confirmed,
          a.delivered + b.delivered, a.counted + b.counted, a.discarded + b.discarded, b.end, b.at)
  }

  /** The send loop from iteration `i`, with the replies its POSTs get. What it
      keeps is stated by the lemmas below. */
  function SendChunks(valid: Record -> bool, q: seq<Record>, m: Metrics, path: string,
                      replies: seq<Reply>, i: nat, removal: Removal): (r: Round)
    requires i <= MAX_POSTS
    decreases MAX_POSTS - i, 1
  {
    if LoopEnds(replies, i) then
      Round(q, m, [], 0, [], "", [], [], Stopped, i)
    else
      Continue(valid, path, replies, i, removal, Iterate(valid, q, m, path, i, replies[i], removal))
  }

  /** The loop after pass `i`: done if the pass left it, otherwise the pass
      followed by the loop from the next iteration. */
  function Continue(valid: Record -> bool, path: string, replies: seq<Reply>, i: nat, removal: Removal,
                    it: Iteration): Round
    requires i < MAX_POSTS
    decreases MAX_POSTS - i, 0
  {
    if !it.more then it.part
    else Then(it.part, SendChunks(valid, it.part.queue, it.part.metrics, path, replies, i + 1, removal))
  }

  /** The loop removes only at the head. */
  lemma {:induction false} SendChunksKeepsHead(valid: Record -> bool, q: seq<Record>, m: Metrics, path: string,
                                               replies: seq<Reply>, i: nat, removal: Removal)
    requires i <= MAX_POSTS
    decreases MAX_POSTS - i, 1
    ensures HeadOnly(q, SendChunks(valid, q, m, path, replies, i, removal))
  {
    if !LoopEnds(replies, i) {
      IterateKeepsHead(valid, q, m, path, i, replies[i], removal);
      ContinueKeepsHead(valid, q, path, replies, i, removal, Iterate(valid, q, m, path, i, replies[i], removal));
    }
  }

  lemma {:induction false} ContinueKeepsHead(valid: Record -> bool, q: seq<Record>, path: string,
                                             replies: seq<Reply>, i: nat, removal: Removal, it: Iteration)
    requires i < MAX_POSTS
    requires HeadOnly(q, it.part) && (it.more ==> it.part.discarded == [])
    decreases MAX_POSTS - i, 0
    ensures HeadOnly(q, Continue(valid, path, replies, i, removal, it))
  {
    if it.more {
      var rest := SendChunks(valid, it.part.queue, it.part.metrics, path, replies, i + 1, removal);
      SendChunksKeepsHead(valid, it.part.queue, it.part.metrics, path, replies, i + 1, removal);
      ThenHeadOnly(q, it.part, rest);
    }
  }

  /** Every record the loop drops is corrupt. */
  lemma {:induction false} SendChunksDropsCorrupt(valid: Record -> bool, q: seq<Record>, m: Metrics, path: string,
                                                  replies: seq<Reply>, i: nat, removal: Removal)
    requires i <= MAX_POSTS
    decreases MAX_POSTS - i, 1
    ensures AllCorrupt(valid, SendChunks(valid, q, m, path, replies, i, removal).discarded)
  {
    if !LoopEnds(replies, i) {
      IterateKeepsHead(valid, q, m, path, i, replies[i], removal);
      ContinueDropsCorrupt(valid, path, replies, i, removal, Iterate(valid, q, m, path, i, replies[i], removal));
    }
  }

  lemma {:induction false} ContinueDropsCorrupt(valid: Record -> bool, path: string, replies: seq<Reply>, i: nat,
                                                removal: Removal, it: Iteration)
    requires i < MAX_POSTS
    requires AllCorrupt(valid, it.part.discarded) && (it.more ==> it.part.discarded == [])
    decreases MAX_POSTS - i, 0
    ensures AllCorrupt(valid, Continue(valid, path, replies, i, removal, it).discarded)
  {
    if it.more {
      var rest := SendChunks(valid, it.part.queue, it.part.metrics, path, replies, i + 1, removal);
      SendChunksDropsCorrupt(valid, it.part.queue, it.part.metrics, path, replies, i + 1, removal);
      assert Then(it.part, rest).discarded == rest.discarded;
    }
  }

  /** The loop sends at most one request per remaining iteration. */
  lemma {:induction false} SendChunksAtMost(valid: Record -> bool, q: seq<Record>, m: Metrics, path: string,
                                            replies: seq<Reply>, i: nat, removal: Removal)
    requires i <= MAX_POSTS
    decreases MAX_POSTS - i, 1
    ensures |SendChunks(valid, q, m, path, replies, i, removal).posts| <= MAX_POSTS - i
  {
    if !LoopEnds(replies, i) {
      IterateEnds(valid, q, m, path, i, replies[i], removal);
      ContinueAtMost(valid, path, replies, i, removal, Iterate(valid, q, m, path, i, replies[i], removal));
    }
  }

  lemma {:induction false} ContinueAtMost(valid: Record -> bool, path: string, replies: seq<Reply>, i: nat,
                                          removal: Removal, it: Iteration)
    requires i < MAX_POSTS
    requires |it.part.posts| <= 1 && (it.more ==> |it.part.posts| == 1)
    decreases MAX_POSTS - i, 0
    ensures |Continue(valid, path, replies, i, removal, it).posts| <= MAX_POSTS - i
  {
    if it.more {
      SendChunksAtMost(valid, it.part.queue, it.part.metrics, path, replies, i + 1, removal);
    }
  }

  /** The loop ends on a response timeout, an emptied queue or its test, and
      it stops only where its test fails: ten iterations done, or the time
      budget spent. */
  lemma {:induction false} SendChunksEnds(valid: Record -> bool, q: seq<Record>, m: Metrics, path: string,
                                          replies: seq<Reply>, i: nat, removal: Removal)
    requires i <= MAX_POSTS
    decreases MAX_POSTS - i, 1
    ensures var r := SendChunks(valid, q, m, path, replies, i, removal);
            LoopEnd(r.end) && (r.end == Stopped ==> LoopEnds(replies, r.at))
  {
    if !LoopEnds(replies, i) {
      IterateEnds(valid, q, m, path, i, replies[i], removal);
      ContinueEnds(valid, path, replies, i, removal, Iterate(valid, q, m, path, i, replies[i], removal));
    }
  }

  lemma {:induction false} ContinueEnds(valid: Record -> bool, path: string, replies: seq<Reply>, i: nat,
                                        removal: Removal, it: Iteration)
    requires i < MAX_POSTS
    requires !it.more ==> it.part.end.ResponseTimeout? || it.part.end.Drained?
    decreases MAX_POSTS - i, 0
    ensures var r := Continue(valid, path, replies, i, removal, it);
            LoopEnd(r.end) && (r.end == Stopped ==> LoopEnds(replies, r.at))
  {
    if it.more {
      SendChunksEnds(valid, it.part.queue, it.part.metrics, path, replies, i + 1, removal);
    }
  }

  /** The loop ends at an iteration no earlier than the one it started at and
      no later than the tenth. */
  lemma {:induction false} SendChunksEndsWithin(valid: Record -> bool, q: seq<Record>, m: Metrics, path: string,
                                                replies: seq<Reply>, i: nat, removal: Removal)
    requires i <= MAX_POSTS
    decreases MAX_POSTS - i, 1
    ensures i <= SendChunks(valid, q, m, path, replies, i, removal).at <= MAX_POSTS
  {
    if !LoopEnds(replies, i) {
      IterateEnds(valid, q, m, path, i, replies[i], removal);
      ContinueEndsWithin(valid, path, replies, i, removal, Iterate(valid, q, m, path, i, replies[i], removal));
    }
  }

  lemma {:induction false} ContinueEndsWithin(valid: Record -> bool, path: string, replies: seq<Reply>, i: nat,
                                              removal: Removal, it: Iteration)
    requires i < MAX_POSTS
    requires !it.more ==> it.part.at == i
    decreases MAX_POSTS - i, 0
    ensures i <= Continue(valid, path, replies, i, removal, it).at <= MAX_POSTS
  {
    if it.more {
      SendChunksEndsWithin(valid, it.part.queue, it.part.metrics, path, replies, i + 1, removal);
    }
  }

  /** The loop times out only on a silent reply, at the iteration it ended at,
      and drains only by emptying the queue. */
  lemma {:induction false} SendChunksTimesOutOnSilence(valid: Record -> bool, q: seq<Record>, m: Metrics,
                                                       path: string, replies: seq<Reply>, i: nat, removal: Removal)
    requires i <= MAX_POSTS
    decreases MAX_POSTS - i, 1
    ensures var r := SendChunks(valid, q, m, path, replies, i, removal);
            && (r.end == ResponseTimeout ==> r.at < |replies| && replies[r.at].Silent?)
            && (r.end == Drained ==> r.queue == [])
  {
    if !LoopEnds(replies, i) {
      IterateEnds(valid, q, m, path, i, replies[i], removal);
      ContinueTimesOutOnSilence(valid, path, replies, i, removal, Iterate(valid, q, m, path, i, replies[i], removal));
    }
  }

  lemma {:induction false} ContinueTimesOutOnSilence(valid: Record -> bool, path: string, replies: seq<Reply>,
                                                     i: nat, removal: Removal, it: Iteration)
    requires i < MAX_POSTS && i < |replies|
    requires !it.more && it.part.end == ResponseTimeout ==> it.part.at == i && replies[i].Silent?
    requires !it.more && it.part.end == Drained ==> it.part.queue == []
    decreases MAX_POSTS - i, 0
    ensures var r := Continue(valid, path, replies, i, removal, it);
            && (r.end == ResponseTimeout ==> r.at < |replies| && replies[r.at].Silent?)
            && (r.end == Drained ==> r.queue == [])
  {
    if it.more {
      SendChunksTimesOutOnSilence(valid, it.part.queue, it.part.metrics, path, replies, i + 1, removal);
    }
  }

  /** The loop removes records as sent only after a 201. */
  lemma {:induction false} SendChunksConfirmsOnAck(valid: Record -> bool, q: seq<Record>, m: Metrics, path: string,
                                                   replies: seq<Reply>, i: nat, removal: Removal)
    requires i <= MAX_POSTS
    decreases MAX_POSTS - i, 1
    ensures var r := SendChunks(valid, q, m, path, replies, i, removal);
            r.acks == 0 ==> r.confirmed == [] && r.delivered == []
  {
    if !LoopEnds(replies, i) {
      IterateConfirmsOnAck(valid, q, m, path, i, replies[i], removal);
      ContinueConfirmsOnAck(valid, path, replies, i, removal, Iterate(valid, q, m, path, i, replies[i], removal));
    }
  }

  lemma {:induction false} ContinueConfirmsOnAck(valid: Record -> bool, path: string, replies: seq<Reply>, i: nat,
                                                 removal: Removal, it: Iteration)
    requires i < MAX_POSTS
    requires it.part.acks == 0 ==> it.part.confirmed == [] && it.part.delivered == []
    decreases MAX_POSTS - i, 0
    ensures var r := Continue(valid, path, replies, i, removal, it);
            r.acks == 0 ==> r.confirmed == [] && r.delivered == []
  {
    if it.more {
      SendChunksConfirmsOnAck(valid, it.part.queue, it.part.metrics, path, replies, i + 1, removal);
    }
  }

  /** The number of 201 replies among iterations `lo` up to, not including, `hi`. */
  function CreatedReplies(replies: seq<Reply>, lo: nat, hi: nat): nat
    decreases hi - lo
  {
    if hi <= lo || |replies| <= lo then 0
    else (if replies[lo].Answer? && replies[lo].status == Created then 1 else 0) + CreatedReplies(replies, lo + 1, hi)
  }

  /** Every 201 the loop counts is the reply of one of its iterations, and
      every 201 reply before the iteration it ended at is counted: the acks are
      exactly the 201 replies from `i` up to `r.at`. */
  lemma {:induction false} SendChunksAcksCreated(valid: Record -> bool, q: seq<Record>, m: Metrics, path: string,
                                                 replies: seq<Reply>, i: nat, removal: Removal)
    requires i <= MAX_POSTS
    decreases MAX_POSTS - i, 1
    ensures var r := SendChunks(valid, q, m, path, replies, i, removal);
            r.acks == CreatedReplies(replies, i, r.at)
  {
    if !LoopEnds(replies, i) {
      IterateConfirmsOnAck(valid, q, m, path, i, replies[i], removal);
      IterateEnds(valid, q, m, path, i, replies[i], removal);
      ContinueAcksCreated(valid, path, replies, i, removal, Iterate(valid, q, m, path, i, replies[i], removal));
    }
  }

  lemma {:induction false} ContinueAcksCreated(valid: Record -> bool, path: string, replies: seq<Reply>, i: nat,
                                               removal: Removal, it: Iteration)
    requires i < MAX_POSTS && i < |replies|
    requires it.part.acks == (if it.more && replies[i].Answer? && replies[i].status == Created then 1 else 0)
    requires !it.more ==> it.part.at == i
    decreases MAX_POSTS - i, 0
    ensures var r := Continue(valid, path, replies, i, removal, it);
            r.acks == CreatedReplies(replies, i, r.at)
  {
    if it.more {
      var rest := SendChunks(valid, it.part.queue, it.part.metrics, path, replies, i + 1, removal);
      SendChunksAcksCreated(valid, it.part.queue, it.part.metrics, path, replies, i + 1, removal);
      SendChunksEndsWithin(valid, it.part.queue, it.part.metrics, path, replies, i + 1, removal);
      assert CreatedReplies(replies, i, rest.at) == it.part.acks + CreatedReplies(replies, i + 1, rest.at);
    }
  }

  /** A positive count of 201 replies names one. */
  lemma {:induction false} CreatedReplyAt(replies: seq<Reply>, lo: nat, hi: nat)
    requires 0 < CreatedReplies(replies, lo, hi)
    decreases hi - lo
    ensures exists k :: lo <= k < hi && k < |replies| && replies[k].Answer? && replies[k].status == Created
  {
    if !(replies[lo].Answer? && replies[lo].status == Created) {
      CreatedReplyAt(replies, lo + 1, hi);
    }
  }

  /** On an empty queue the loop sends, removes and counts nothing. */
  lemma SendChunksIdle(valid: Record -> bool, q: seq<Record>, m: Metrics, path: string,
                       replies: seq<Reply>, i: nat, removal: Removal)
    requires i <= MAX_POSTS
    requires |q| == 0
    ensures var r := SendChunks(valid, q, m, path, replies, i, removal);
            r == Round(q, m, [], 0, [], "", [], [], r.end, i)
  {
    if !LoopEnds(replies, i) {
      assert BuildChunk(valid, q).Examined() == 0;
    }
  }

  /** Every request the loop sends is well framed. */
  lemma {:induction false} SendChunksFramed(valid: Record -> bool, q: seq<Record>, m: Metrics, path: string,
                                            replies: seq<Reply>, i: nat, removal: Removal)
    requires i <= MAX_POSTS
    decreases MAX_POSTS - i, 1
    ensures WellFramed(path, SendChunks(valid, q, m, path, replies, i, removal).posts)
  {
    if !LoopEnds(replies, i) {
      IterateFramed(valid, q, m, path, i, replies[i], removal);
      ContinueFramed(valid, path, replies, i, removal, Iterate(valid, q, m, path, i, replies[i], removal));
    }
  }

  lemma {:induction false} ContinueFramed(valid: Record -> bool, path: string, replies: seq<Reply>, i: nat,
                                          removal: Removal, it: Iteration)
    requires i < MAX_POSTS
    requires WellFramed(path, it.part.posts)
    decreases MAX_POSTS - i, 0
    ensures WellFramed(path, Continue(valid, path, replies, i, removal, it).posts)
  {
    if it.more {
      var rest := SendChunks(valid, it.part.queue, it.part.metrics, path, replies, i + 1, removal);
      SendChunksFramed(valid, it.part.queue, it.part.metrics, path, replies, i + 1, removal);
      ThenFramed(path, it.part.posts, rest.posts);
    }
  }

  /** The loop's counters account for every request it sent. */
  lemma {:induction false} SendChunksCounted(valid: Record -> bool, q: seq<Record>, m: Metrics, path: string,
                                             replies: seq<Reply>, i: nat, removal: Removal)
    requires i <= MAX_POSTS
    decreases MAX_POSTS - i, 1
    ensures Counted(m, SendChunks(valid, q, m, path, replies, i, removal), 0)
  {
    if !LoopEnds(replies, i) {
      IterateCounted(valid, q, m, path, i, replies[i], removal);
      ContinueCounted(valid, m, path, replies, i, removal, Iterate(valid, q, m, path, i, replies[i], removal));
    }
  }

  lemma {:induction false} ContinueCounted(valid: Record -> bool, m: Metrics, path: string, replies: seq<Reply>,
                                           i: nat, removal: Removal, it: Iteration)
    requires i < MAX_POSTS
    requires Counted(m, it.part, 0)
    decreases MAX_POSTS - i, 0
    ensures Counted(m, Continue(valid, path, replies, i, removal, it), 0)
  {
    if it.more {
      var rest := SendChunks(valid, it.part.queue, it.part.metrics, path, replies, i + 1, removal);
      SendChunksCounted(valid, it.part.queue, it.part.metrics, path, replies, i + 1, removal);
      ThenCounted(m, it.part, rest);
    }
  }

  /** The summed elapsed time of the answers among iterations `lo` up to, not
      including, `hi` that were 201 (`created`) or that were not. */
  function AnsweredTime(replies: seq<Reply>, lo: nat, hi: nat, created: bool): nat
    decreases hi - lo
  {
    if hi <= lo || |replies| <= lo then 0
    else
      var here := if replies[lo].Answer? && (replies[lo].status == Created) == created then replies[lo].elapsed else 0;
      here + AnsweredTime(replies, lo + 1, hi, created)
  }

  /** Where the loop's waiting time went, read from the replies: the elapsed
      time of every 201 before the iteration it ended at to the success time;
      that of every other answer before it, and of the silent reply it timed
      out on, to the error time. */
  predicate Timed(replies: seq<Reply>, i: nat, m: Metrics, r: Round) {
    && r.metrics.uploadTimeSuccess == m.uploadTimeSuccess + AnsweredTime(replies, i, r.at, true)
    && r.metrics.uploadTimeError
         == m.uploadTimeError + AnsweredTime(replies, i, r.at, false)
            + (if r.end == ResponseTimeout && r.at < |replies| && replies[r.at].Silent? then replies[r.at].elapsed else 0)
  }

  /** The loop adds each reply's elapsed time to the success or the error time
      as its branch says. */
  lemma {:induction false} SendChunksTimed(valid: Record -> bool, q: seq<Record>, m: Metrics, path: string,
                                           replies: seq<Reply>, i: nat, removal: Removal)
    requires i <= MAX_POSTS
    decreases MAX_POSTS - i, 1
    ensures Timed(replies, i, m, SendChunks(valid, q, m, path, replies, i, removal))
  {
    if !LoopEnds(replies, i) {
      IterateCounted(valid, q, m, path, i, replies[i], removal);
      IterateExits(valid, q, m, path, i, replies[i], removal);
      IterateEnds(valid, q, m, path, i, replies[i], removal);
      ContinueTimed(valid, m, path, replies, i, removal, Iterate(valid, q, m, path, i, replies[i], removal));
    }
  }

  lemma {:induction false} ContinueTimed(valid: Record -> bool, m: Metrics, path: string, replies: seq<Reply>,
                                         i: nat, removal: Removal, it: Iteration)
    requires i < MAX_POSTS && i < |replies| && !replies[i].Expired?
    requires it.more ==> replies[i].Answer?
    requires !it.more ==> it.part.at == i && (it.part.end == ResponseTimeout ==> replies[i].Silent?)
    requires var e := replies[i].elapsed;
             var created := replies[i].Answer? && replies[i].status == Created;
             && it.part.metrics.uploadTimeSuccess == m.uploadTimeSuccess + (if it.more && created then e else 0)
             && it.part.metrics.uploadTimeError
                  == m.uploadTimeError
                     + (if it.more then (if created then 0 else e) else if it.part.end == ResponseTimeout then e else 0)
    decreases MAX_POSTS - i, 0
    ensures Timed(replies, i, m, Continue(valid, path, replies, i, removal, it))
  {
    if it.more {
      var rest := SendChunks(valid, it.part.queue, it.part.metrics, path, replies, i + 1, removal);
      SendChunksTimed(valid, it.part.queue, it.part.metrics, path, replies, i + 1, removal);
      SendChunksEndsWithin(valid, it.part.queue, it.part.metrics, path, replies, i + 1, removal);
      assert AnsweredTime(replies, i, rest.at, true)
          == (if replies[i].status == Created then replies[i].elapsed else 0) + AnsweredTime(replies, i + 1, rest.at, true);
      assert AnsweredTime(replies, i, rest.at, false)
          == (if replies[i].status == Created then 0 else replies[i].elapsed) + AnsweredTime(replies, i + 1, rest.at, false);
    }
  }

  /** Under either removal count, the loop attributes its records to the counters. */
  lemma {:induction false} SendChunksAttributed(valid: Record -> bool, q: seq<Record>, m: Metrics, path: string,
                                                replies: seq<Reply>, i: nat, removal: Removal)
    requires i <= MAX_POSTS
    decreases MAX_POSTS - i, 1
    ensures Attributed(valid, m, SendChunks(valid, q, m, path, replies, i, removal))
  {
    if !LoopEnds(replies, i) {
      IterateAttributed(valid, q, m, path, i, replies[i], removal);
      ContinueAttributed(valid, m, path, replies, i, removal, Iterate(valid, q, m, path, i, replies[i], removal));
    }
  }

  lemma {:induction false} ContinueAttributed(valid: Record -> bool, m: Metrics, path: string, replies: seq<Reply>,
                                              i: nat, removal: Removal, it: Iteration)
    requires i < MAX_POSTS
    requires Attributed(valid, m, it.part)
    decreases MAX_POSTS - i, 0
    ensures Attributed(valid, m, Continue(valid, path, replies, i, removal, it))
  {
    if it.more {
      var rest := SendChunks(valid, it.part.queue, it.part.metrics, path, replies, i + 1, removal);
      SendChunksAttributed(valid, it.part.queue, it.part.metrics, path, replies, i + 1, removal);
      ThenAttributed(valid, m, it.part, rest);
    }
  }

  /** With the corrected removal count, the loop loses nothing. */
  lemma {:induction false} SendChunksNoLoss(valid: Record -> bool, q: seq<Record>, m: Metrics, path: string,
                                            replies: seq<Reply>, i: nat)
    requires i <= MAX_POSTS
    decreases MAX_POSTS - i, 1
    ensures NoLoss(valid, m, SendChunks(valid, q, m, path, replies, i, Corrected))
  {
    if !LoopEnds(replies, i) {
      IterateNoLoss(valid, q, m, path, i, replies[i]);
      ContinueNoLoss(valid, m, path, replies, i, Iterate(valid, q, m, path, i, replies[i], Corrected));
    }
  }

  lemma {:induction false} ContinueNoLoss(valid: Record -> bool, m: Metrics, path: string, replies: seq<Reply>,
                                          i: nat, it: Iteration)
    requires i < MAX_POSTS
    requires NoLoss(valid, m, it.part)
    decreases MAX_POSTS - i, 0
    ensures NoLoss(valid, m, Continue(valid, path, replies, i, Corrected, it))
  {
    if it.more {
      var rest := SendChunks(valid, it.part.queue, it.part.metrics, path, replies, i + 1, Corrected);
      SendChunksNoLoss(valid, it.part.queue, it.part.metrics, path, replies, i + 1);
      ThenNoLoss(valid, m, it.part, rest);
    }
  }

  /** Head-only removal composes when the first part dropped nothing as corrupt. */
  lemma ThenHeadOnly(q: seq<Record>, a: Round, b: Round)
    requires HeadOnly(q, a) && a.discarded == [] && HeadOnly(a.queue, b)
    ensures HeadOnly(q, Then(a, b))
  {
    assert a.confirmed + a.discarded == a.confirmed;
    assert q == a.confirmed + (b.confirmed + b.discarded + b.queue);
    assert Then(a, b).confirmed == a.confirmed + b.confirmed;
  }

  lemma ThenFramed(path: string, a: seq<Request>, b: seq<Request>)
    requires WellFramed(path, a) && WellFramed(path, b)
    ensures WellFramed(path, a + b)
  {
    assert forall k :: |a| <= k < |a + b| ==> (a + b)[k] == b[k - |a|];
  }

  /** Body bytes of consecutive runs of requests add up. */
  lemma {:induction false} BodyBytesAppend(a: seq<Request>, b: seq<Request>)
    ensures BodyBytes(a + b) == BodyBytes(a) + BodyBytes(b)
  {
    if |a| > 0 {
      BodyBytesAppend(a[1..], b);
      assert (a + b)[1..] == a[1..] + b;
    } else {
      assert a + b == b;
    }
  }

  /** Counter accounting composes: the second part starts from the first's counters. */
  lemma ThenCounted(m: Metrics, a: Round, b: Round)
    requires Counted(m, a, 0) && Counted(a.metrics, b, 0)
    ensures Counted(m, Then(a, b), 0)
  {
    BodyBytesAppend(a.posts, b.posts);
  }

  /** Attribution composes. */
  lemma ThenAttributed(valid: Record -> bool, m: Metrics, a: Round, b: Round)
    requires Attributed(valid, m, a) && Attributed(valid, a.metrics, b)
    ensures Attributed(valid, m, Then(a, b))
  {
    BodyAppend(valid, a.counted, b.counted);
  }

  /** No loss composes. */
  lemma ThenNoLoss(valid: Record -> bool, m: Metrics, a: Round, b: Round)
    requires NoLoss(valid, m, a) && NoLoss(valid, a.metrics, b)
    ensures NoLoss(valid, m, Then(a, b))
  {
    BodyAppend(valid, a.confirmed, b.confirmed);
  }

  /** What every round guarantees, `connectErrors` being the failed connection
      attempts it made: removal only at the head, at most ten requests, all
      well framed, exact counters, only corrupt records dropped, nothing removed
      as sent without a 201, record counters attributed, and with the corrected removal count nothing lost. */
  predicate Sound(valid: Record -> bool, q: seq<Record>, m: Metrics, path: string, removal: Removal,
                  r: Round, connectErrors: nat) {
    && HeadOnly(q, r)
    && |r.posts| <= MAX_POSTS
    && WellFramed(path, r.posts)
    && Counted(m, r, connectErrors)
    && Attributed(valid, m, r)
    && AllCorrupt(valid, r.discarded)
    && (r.acks == 0 ==> r.confirmed == [] && r.delivered == [])
    && (removal == Corrected ==> NoLoss(valid, m, r))
  }

  /** How the send loop left, read from the replies: its own test failed at
      the iteration it ended at, a silent reply made it return there, or the
      queue ran empty; never after the tenth iteration. */
  predicate Exits(replies: seq<Reply>, r: Round) {
    && LoopEnd(r.end)
    && r.at <= MAX_POSTS
    && (r.end == Stopped ==> LoopEnds(replies, r.at))
    && (r.end == ResponseTimeout ==> r.at < |replies| && replies[r.at].Silent?)
    && (r.end == Drained ==> r.queue == [])
  }

  /** The whole send loop, from its first iteration, is sound and leaves only
      by its test, a response timeout or an emptied queue. */
  lemma SendChunksSound(valid: Record -> bool, q: seq<Record>, m: Metrics, path: string,
                        replies: seq<Reply>, removal: Removal)
    ensures var r := SendChunks(valid, q, m, path, replies, 0, removal);
            Sound(valid, q, m, path, removal, r, 0) && Exits(replies, r)
    ensures var r := SendChunks(valid, q, m, path, replies, 0, removal);
            r.acks == CreatedReplies(replies, 0, r.at)
    ensures Timed(replies, 0, m, SendChunks(valid, q, m, path, replies, 0, removal))
  {
    SendChunksKeepsHead(valid, q, m, path, replies, 0, removal);
    SendChunksDropsCorrupt(valid, q, m, path, replies, 0, removal);
    SendChunksAtMost(valid, q, m, path, replies, 0, removal);
    SendChunksEnds(valid, q, m, path, replies, 0, removal);
    SendChunksEndsWithin(valid, q, m, path, replies, 0, removal);
    SendChunksTimesOutOnSilence(valid, q, m, path, replies, 0, removal);
    SendChunksFramed(valid, q, m, path, replies, 0, removal);
    SendChunksCounted(valid, q, m, path, replies, 0, removal);
    SendChunksAttributed(valid, q, m, path, replies, 0, removal);
    SendChunksConfirmsOnAck(valid, q, m, path, replies, 0, removal);
    SendChunksAcksCreated(valid, q, m, path, replies, 0, removal);
    SendChunksTimed(valid, q, m, path, replies, 0, removal);
    if removal == Corrected {
      SendChunksNoLoss(valid, q, m, path, replies, 0);
    }
  }

  /** The replies a round gets, exchange by exchange. */
  function Replies(exchanges: seq<Exchange>): (rs: seq<Reply>)
    ensures |rs| == |exchanges|
    ensures forall k :: 0 <= k < |rs| ==> rs[k] == Read(exchanges[k])
  {
    seq(|exchanges|, k requires 0 <= k < |exchanges| => Read(exchanges[k]))
  }

  /** Acks only for 201s, read from the exchanges: the acks are exactly the
      201 answers before the iteration the round ended at, and a round that
      removed records as sent got at least one. */
  predicate AckedOnCreated(exchanges: seq<Exchange>, r: Round) {
    && r.acks == CreatedReplies(Replies(exchanges), 0, r.at)
    && (r.confirmed != [] ==>
          exists k :: 0 <= k < r.at && k < |exchanges|
                      && Answered(exchanges[k]) && Classify(exchanges[k].text) == Created)
  }

  /** The send loop on the replies read from a script of exchanges: sound,
      leaving only as the exchanges dictate, and acking only 201 answers. */
  lemma SendChunksOverExchanges(valid: Record -> bool, q: seq<Record>, m: Metrics, path: string,
                                exchanges: seq<Exchange>, removal: Removal)
    ensures var r := SendChunks(valid, q, m, path, Replies(exchanges), 0, removal);
            && Sound(valid, q, m, path, removal, r, 0)
            && LoopEnd(r.end)
            && (r.end == Stopped ==> r.at == MAX_POSTS || |exchanges| <= r.at || exchanges[r.at].OutOfTime?)
            && (r.end == ResponseTimeout ==>
                  r.at < |exchanges| && !exchanges[r.at].OutOfTime? && !Answered(exchanges[r.at]))
            && (r.end == Drained ==> r.queue == [])
  {
    SendChunksSound(valid, q, m, path, Replies(exchanges), removal);
  }

  /** The send loop on the replies read from a script of exchanges acks only
      201 answers. */
  lemma SendChunksAcksOverExchanges(valid: Record -> bool, q: seq<Record>, m: Metrics, path: string,
                                    exchanges: seq<Exchange>, removal: Removal)
    ensures AckedOnCreated(exchanges, SendChunks(valid, q, m, path, Replies(exchanges), 0, removal))
  {
    var replies := Replies(exchanges);
    var r := SendChunks(valid, q, m, path, replies, 0, removal);
    SendChunksAcksCreated(valid, q, m, path, replies, 0, removal);
    if r.confirmed != [] {
      SendChunksConfirmsOnAck(valid, q, m, path, replies, 0, removal);
      CreatedReplyAt(replies, 0, r.at);
      var k :| 0 <= k < r.at && k < |replies| && replies[k].Answer? && replies[k].status == Created;
      assert replies[k] == Read(exchanges[k]);
    }
  }

  /** Where a round's waiting time went: a failed connect's time to the error
      time; otherwise as `Timed` says, over the replies read from the exchanges. */
  predicate RoundTimed(net: Network, m: Metrics, r: Round) {
    if r.end == ConnectFailed then
      && r.metrics.uploadTimeSuccess == m.uploadTimeSuccess
      && r.metrics.uploadTimeError == m.uploadTimeError + net.connectElapsed
    else Timed(Replies(net.exchanges), 0, m, r)
  }

  /** `_sendNextGpsData` after the flush: nothing to do on an empty queue, one
      error on a failed connection, otherwise the send loop. */
  function UploadRound(valid: Record -> bool, q: seq<Record>, m: Metrics, path: string,
                       net: Network, removal: Removal): (r: Round)
    ensures Sound(valid, q, m, path, removal, r, if r.end == ConnectFailed then 1 else 0)
    ensures r.end == NothingQueued <==> |q| == 0
    ensures r.end == ConnectFailed <==> 0 < |q| && !net.connects
    ensures !LoopEnd(r.end) ==> r.queue == q && r.posts == []
    ensures r.end == NothingQueued ==> r.metrics == m
    ensures r.end == Stopped ==>
              r.at == MAX_POSTS || |net.exchanges| <= r.at || net.exchanges[r.at].OutOfTime?
    ensures r.end == ResponseTimeout ==>
              r.at < |net.exchanges| && !net.exchanges[r.at].OutOfTime? && !Answered(net.exchanges[r.at])
    ensures r.end == Drained ==> r.queue == []
    ensures AckedOnCreated(net.exchanges, r)
    ensures RoundTimed(net, m, r)
  {
    if |q| == 0 then Round(q, m, [], 0, [], "", [], [], NothingQueued, 0)
    else if !net.connects then
      Round(q, ConnectFailure(m, net.connectElapsed), [], 0, [], "", [], [], ConnectFailed, 0)
    else
      var replies := Replies(net.exchanges);
      SendChunksOverExchanges(valid, q, m, path, net.exchanges, removal);
      SendChunksAcksOverExchanges(valid, q, m, path, net.exchanges, removal);
      SendChunksTimed(valid, q, m, path, replies, 0, removal);
      SendChunks(valid, q, m, path, replies, 0, removal)
  }
}

=== FILE: upload_facts.dfy ===
/** Consequences of the upload round in the situations the node meets: a
    rejecting server, a backlog that fits one chunk, and the removal count
    after a chunk that stopped at the size ceiling. */
module UploadFacts {
  import opened Wrappers
  import opened RecordQueue
  import opened Metrics
  import opened UploadChunk
  import opened Http
  import opened Upload

  /** The body of a prefix is a prefix of the body, so it is never longer. */
  lemma PrefixBodyShorter(valid: Record -> bool, q: seq<Record>, e: nat)
    requires e <= |q|
    ensures |Body(valid, q[..e])| <= |Body(valid, q)|
  {
    assert q == q[..e] + q[e..];
    BodyAppend(valid, q[..e], q[e..]);
  }

  /** A queue whose whole body stays below the ceiling is examined to the end. */
  lemma SmallQueueExaminedWhole(valid: Record -> bool, q: seq<Record>)
    requires |Body(valid, q)| < CHUNK_CEILING
    ensures BuildChunk(valid, q).Examined() == |q|
  {
    var e := BuildChunk(valid, q).Examined();
    if e < |q| {
      PrefixBodyShorter(valid, q, e);
      assert false;
    }
  }

  /** `n` copies of one request. */
  function Repeat(post: Request, n: nat): (posts: seq<Request>)
    ensures |posts| == n
  {
    if n == 0 then [] else [post] + Repeat(post, n - 1)
  }

  /** A server that answers every POST with something other than 201 gets the
      same chunk again on every iteration until the ten iterations or the time
      budget are used up; nothing leaves the queue and every POST is one error. */
  lemma {:induction false} RejectedRetriesSameChunk(valid: Record -> bool, q: seq<Record>, m: Metrics,
                                                    path: string, replies: seq<Reply>, i: nat, removal: Removal)
    requires i <= MAX_POSTS
    requires 0 < |BuildChunk(valid, q).body|
    requires forall k :: i <= k < |replies| ==> replies[k].Answer? && replies[k].status != Created
    ensures var r := SendChunks(valid, q, m, path, replies, i, removal);
            var n := if |replies| <= i then 0 else Min(|replies|, MAX_POSTS) - i;
            && r.queue == q && r.acks == 0
            && r.posts == Repeat(Post(path, BuildChunk(valid, q).body), n)
            && r.metrics.uploadCountError == m.uploadCountError + n
            && r.metrics.uploadCountSuccess == m.uploadCountSuccess
    decreases MAX_POSTS - i
  {
    if !LoopEnds(replies, i) {
      var it := Iterate(valid, q, m, path, i, replies[i], removal);
      RejectedPass(valid, q, m, path, i, replies[i], removal);
      RejectedRetriesSameChunk(valid, q, it.part.metrics, path, replies, i + 1, removal);
      assert SendChunks(valid, q, m, path, replies, i, removal)
          == Then(it.part, SendChunks(valid, q, it.part.metrics, path, replies, i + 1, removal));
    }
  }

  /** A pass whose request is answered with something other than 201 keeps the
      queue, counts one error and goes on. */
  lemma RejectedPass(valid: Record -> bool, q: seq<Record>, m: Metrics, path: string,
                     i: nat, reply: Reply, removal: Removal)
    requires 0 < |BuildChunk(valid, q).body|
    requires reply.Answer? && reply.status != Created
    ensures var it := Iterate(valid, q, m, path, i, reply, removal);
            && it.more && it.part.queue == q && it.part.acks == 0
            && it.part.posts == [Post(path, BuildChunk(valid, q).body)]
            && it.part.metrics.uploadCountError == m.uploadCountError + 1
            && it.part.metrics.uploadCountSuccess == m.uploadCountSuccess
  {
  }

  /** A backlog of valid records whose body fits below the ceiling goes out
      in one POST; when that POST gets 201 the queue is empty afterwards under
      either removal count, and every record and byte is counted as a success. */
  lemma SmallBacklogDelivered(valid: Record -> bool, q: seq<Record>, m: Metrics, path: string,
                              replies: seq<Reply>, removal: Removal)
    requires 0 < |q|
    requires AllValid(valid, q)
    requires |Body(valid, q)| < CHUNK_CEILING
    requires 0 < |replies| && replies[0].Answer? && replies[0].status == Created
    ensures var r := SendChunks(valid, q, m, path, replies, 0, removal);
            && r.queue == [] && r.acks == 1 && |r.posts| == 1
            && r.posts[0].body == Body(valid, q)
            && r.confirmed == q && r.discarded == []
            && r.metrics.uploadCountSuccess == m.uploadCountSuccess + 1
            && r.metrics.uploadCountError == m.uploadCountError
            && r.metrics.uploadRecordsSuccess == m.uploadRecordsSuccess + |q|
            && r.metrics.uploadRecordCrcError == m.uploadRecordCrcError
            && r.metrics.uploadBytesSuccess == m.uploadBytesSuccess + |Body(valid, q)|
  {
    var c := BuildChunk(valid, q);
    SmallQueueExaminedWhole(valid, q);
    assert q[..|q|] == q;
    AllValidCounts(valid, q);
    var n := Min(AckRemovalCount(c, removal), |q|);
    assert n == |q|;
    var post := Post(path, c.body);
    var first := Acked(valid, q, m, post, replies[0].elapsed, c.ok, c.err, c.Examined(), n, 0);
    assert Iterate(valid, q, m, path, 0, replies[0], removal) == Iteration(first, true);
    assert first.queue == [];
    var rest := SendChunks(valid, first.queue, first.metrics, path, replies, 1, removal);
    SendChunksIdle(valid, first.queue, first.metrics, path, replies, 1, removal);
    assert SendChunks(valid, q, m, path, replies, 0, removal) == Then(first, rest);
  }

  /** A run of valid records counts every one as valid and none as corrupt. */
  lemma {:induction false} AllValidCounts(valid: Record -> bool, rs: seq<Record>)
    requires AllValid(valid, rs)
    ensures ValidCount(valid, rs) == |rs| && InvalidCount(valid, rs) == 0
  {
    if |rs| > 0 {
      AllValidCounts(valid, rs[..|rs| - 1]);
    }
  }

  /** As written, a 201 removes one record more than the chunk examined. When
      the build stopped at the ceiling, that record was peeked but never sent:
      the removed records' body is the sent body plus that record's line. */
  lemma AsWrittenRemovesUnsentRecord(valid: Record -> bool, q: seq<Record>)
    requires BuildChunk(valid, q).Examined() < |q|
    ensures var c := BuildChunk(valid, q);
            var n := Min(AckRemovalCount(c, AsWritten), |q|);
            && n == c.Examined() + 1
            && Body(valid, q[..n]) == c.body + (if valid(q[c.Examined()]) then q[c.Examined()] + "\n" else "")
            && (valid(q[c.Examined()]) ==> Body(valid, q[..n]) != c.body)
  {
    var c := BuildChunk(valid, q);
    BodyStep(valid, q, c.Examined());
  }

  /** The off-by-one as a pass sees it: when the build stopped at the ceiling
      in front of a valid record, a 201 removes that record too, so the records
      removed as sent carry a body other than the one delivered. */
  lemma AsWrittenPassLosesRecord(valid: Record -> bool, q: seq<Record>, m: Metrics, path: string, elapsed: nat)
    requires BuildChunk(valid, q).Examined() < |q|
    requires valid(q[BuildChunk(valid, q).Examined()])
    requires 0 < |BuildChunk(valid, q).body|
    ensures var c := BuildChunk(valid, q);
            var r := Iterate(valid, q, m, path, 0, Answer(Created, elapsed), AsWritten).part;
            && r.confirmed == q[..c.Examined() + 1]
            && r.delivered == c.body
            && !NoLoss(valid, m, r)
  {
    AsWrittenRemovesUnsentRecord(valid, q);
  }

  /** Removing only the examined records removes exactly what the body was built from. */
  lemma CorrectedRemovesSentRecords(valid: Record -> bool, q: seq<Record>)
    ensures var c := BuildChunk(valid, q);
            var n := Min(AckRemovalCount(c, Corrected), |q|);
            && n == c.Examined()
            && Body(valid, q[..n]) == c.body
            && ValidCount(valid, q[..n]) == c.ok && InvalidCount(valid, q[..n]) == c.err
  {
  }
}

=== FILE: wrappers.dfy ===
/** Small failure-carrying datatype shared by the modules of the GPS uplink model. */
module Wrappers {

  /** A value that may be absent: a failed queue peek, an unparsable number, no publication. */
  datatype Option<+T> = None | Some(value: T)

  function Min(a: nat, b: nat): nat {
    if a <= b then a else b
  }
}
